=== FILE: README.md ===
# A verified model of the coding-challenge platform's core

The platform is a small Flask application with a browser front end. Learners
pick a challenge from a catalog. They can reveal hints, each of which costs
part of the challenge's available score. They then submit either Python code
or a free-text answer. The server runs submitted code against the
challenge's test cases. On the first success it awards the available score
and records the challenge as completed.

The model has three parts:

- **Session** (`session.dfy`) is the browser session state machine of
  `static/js/app.js`. It covers challenge selection, hint-button clicks,
  hint replies, the free-text answer submission and its reply. Each handler
  is a pure function from the session to the next session. Where a handler
  sends a request, the request is returned instead of sent.
- **Grading** (`grading.dfy`) is `run_user_code` and the award bookkeeping of
  `submit` in `app.py`. Learner code is a parameter: either it raises when
  executed, or it yields an optional entry point `foo`, a function from
  argument lists to an optional result (`None` = raised).
- **Answers** (`answers.dfy`, `numerals.dfy`, `dicts.dfy`) are the reference
  solutions in `answers.py`: OddEven, FizzBuzz, Bin2Dec (`int(x, 2)`),
  Dec2Bin (`bin(x)[2:]`), ReverseString, MergeDicts, InvertDict,
  ExtractKeys, Dict2TupleList and SumDict. A Python dict is modelled by its
  entries in insertion order (`seq<(K, V)>`). `ToMap` is the mapping the
  entries denote, and `Put` is the assignment `d[k] = v`.

`wrappers.dfy` holds `Option`. `lookup.dfy` holds `FindFirst`, which both
sides use to look a challenge up by id: the browser with `find` and the
server with `next(...)`. `text.dfy` holds the stripping of white space
from both ends of a string. JavaScript's `trim()` and the stripping Python's
`int()` does differ only in the set of white-space characters, which is a
parameter. `sums.dfy` holds the sum of an integer list, used for hint
penalties in the browser and for awards on the server.

### What the code does not do

The model follows the code as written, including these behaviours:

- Hint replies are applied whatever the current selection is. There is no
  staleness check, so a late reply for challenge A is charged against
  challenge B (`Session.StaleHintReplyChargesNewSelection`).
- Nothing is gated on prior completion in the browser. Hints and
  resubmission stay available. For code submitted to `/submit`, the server
  awards 0 on a repeat (app.py:67-69).
- A successful answer reply does not zero the displayed available score.
  The reply handler leaves the session unchanged.
- Selecting an unknown id clears `currentChallenge` and nothing else in
  the modelled session, so an old answer field stays. The click handler
  still turns the computer frame on and moves the `active-challenge`
  highlight before the lookup (static/js/app.js:54-59). Those are visual
  classes only, and the model does not track them.

## Model

| member | source | states |
|---|---|---|
| Lookup.FindFirst | app.py:59 | the index found is the first whose element satisfies the test; `None` exactly when no element does |
| Session.EffectiveType | static/js/app.js:66 | the effective challenge type is never empty; "code" exactly when the type is missing, empty or "code"; a non-empty type is kept |
| Session.FindChallenge | static/js/app.js:62-63 | the result is the first catalog record carrying the id; `None` exactly when no record carries it |
| Session.SetupHints | static/js/app.js:189-209 | one enabled button per index below `hint_count`, each remembering the challenge id it was built for; none when `hint_count <= 0` |
| Session.Select | static/js/app.js:62-209 | a known id becomes current, with its full score, an empty hint panel, fresh buttons and the global id set; code challenges get a writable editor and enabled submit, other types hide the editor and only image/audio/video get an answer field; the hints header shows exactly when the challenge has hints; a media element appears exactly for image, audio and video, with that type and the challenge's `media` as source; an unknown id changes only `currentChallenge` |
| Session.SelectBuildsFreshButtons | static/js/app.js:184-209 | after selecting a known challenge no hint button is disabled and every button's index is its position |
| Session.ClickHint | static/js/app.js:198-202 | an enabled button requests (its challenge, its index) and becomes disabled; no other button and no other part of the session changes, and the number of buttons stays the same; a disabled or missing button does nothing; the score is never touched |
| Session.ClicksRequestEachHintAtMostOnce | static/js/app.js:198-202 | over any series of clicks each hint index is requested at most once, the indices requested are exactly the buttons newly disabled, and the score is unchanged |
| Session.ApplyHintReply | static/js/app.js:218-226 | a reply with a non-empty hint text appends the text and subtracts the penalty, floored at 0; any other reply or a failed fetch changes nothing; buttons, selection, view and the global challenge id are never touched: only the score and the hint texts change |
| Session.HintRepliesFloorOnce | static/js/app.js:221 | with non-negative penalties, flooring after each reply equals `max(0, score - total penalty)` |
| Session.StaleHintReplyChargesNewSelection | static/js/app.js:211-221 | a reply requested for challenge 1 but arriving after challenge 2 is selected is deducted from challenge 2's score |
| Text.Leading | static/js/app.js:153 | the count of leading characters `trim()` cuts: all of them are white space and the next character is not |
| Text.Trailing | static/js/app.js:153 | the count of trailing characters `trim()` cuts: all of them are white space and the character before them is not |
| Text.Strip | static/js/app.js:153 | `trim()` returns text no longer than its input, with no white space left at either end |
| Text.StripIsInnerSlice | static/js/app.js:153 | `trim()` returns a contiguous slice of its input, and everything cut away at either end is white space |
| Text.StripEmptyIffAllIn | static/js/app.js:153-157 | the trimmed answer is empty exactly when the input is all white space |
| Text.StripPadded | answers.py:24-25 | `int()` strips any white space padding and nothing else: text with no white space at its ends, padded on either side, strips back to itself |
| Session.SubmitAnswer | static/js/app.js:152-167 | with no answer field on the page the click does nothing; a request is sent exactly when the answer field exists, a challenge is current and the trimmed input is non-empty, and it carries that challenge's id and the trimmed text; an all-white-space answer is refused; with no current challenge the handler throws |
| Session.ApplyAnswerReply | static/js/app.js:169-177 | success shows the points earned, failure shows "try again", a transport error is only logged; the session never changes |
| Grading.PassCount | app.py:33-36 | the number of passing test cases is at most their number, and equals it exactly when every test case passes |
| Grading.RunOf | app.py:17-45 | the outcome of a run, case by case: success exactly when `foo` exists, nothing raises, there is a test case and all pass; a percentage is reported only for a non-empty test list, with the passed count as its numerator; any other outcome is a failure with 0 passed |
| Grading.RunUserCode | app.py:17-45 | the test loop computes exactly `Grading.RunOf`: code that raises on exec, a missing `foo`, a raise on any test case and an empty test list (division by zero) each give failure with 0 passed; otherwise the count passed and its percentage; success exactly when `foo` exists, nothing raises, there is a test case and all pass |
| Grading.RecordSuccess | app.py:66-71 | the first success for an id adds the available score to the total and appends the id; a repeat awards 0 and changes nothing; the completed list stays duplicate-free |
| Grading.Submit | app.py:58-81 | the reply is "not found" exactly when no challenge has the id, and then nothing changes; a failed run changes nothing; success happens exactly when the first challenge with the id is graded successfully, and then the reply's total is the new total and the award is the available score on the first success and 0 on a repeat; for a known id the reply is a failure exactly when running the code against that first challenge's tests fails, a failure carries that run's message, and a repeat success carries the run's percentage message, not an "earned" message |
| Grading.FirstWithId | app.py:59 | the challenge found carries the requested id, and no earlier challenge in the list carries it |
| Grading.LedgerInvariant | app.py:66-71 | over any series of successes the total grows by exactly the sum of the awards, the completed list only grows, stays duplicate-free, and holds exactly the old ids and the ids that succeeded |
| Grading.RepeatAwardsNothing | app.py:68-69 | a success for an id already completed awards 0 |
| Grading.SecondSuccessAwardsNothing | app.py:66-71 | of two successes for the same id only the first can award points |
| Numerals.ToDigits | answers.py:16 | `str(n)` is a canonical digit string (no leading zero except "0") that starts with '0' exactly for 0 |
| Numerals.ValueOfToDigits | answers.py:28-29 | reading the digits of `n` back gives `n` |
| Numerals.ToDigitsOfValue | answers.py:24-25 | every canonical digit string is the digit string of its own value |
| Answers.OddEven | answers.py:2-3 | the result is "Even" or "Odd" |
| Answers.OddEvenOfDoubles | answers.py:2-3 | doubles are "Even", their successors "Odd", and neighbours always differ |
| Answers.FizzBuzz | answers.py:6-17 | one word per number 1..n (none for n <= 0): "FizzBuzz" exactly for multiples of 15, "Fizz"/"Buzz" exactly for multiples of 3 only/5 only, the decimal digits otherwise |
| Answers.DropUnderscoresKeepsBinaryDigits | answers.py:24-25 | removing the underscores from a body of 0, 1 and `_` leaves binary digits |
| Answers.ParseBodyUnderscoreJoin | answers.py:24-25 | one underscore between two well-formed bodies changes nothing: the joined and the underscore-joined text both parse, to the digits of the two parts side by side |
| Answers.Bin2Dec | answers.py:24-25 | the empty string is rejected; a negative result comes only from input that starts with '-' after stripping |
| Answers.Bin2DecAccepts | answers.py:24-25 | characters `int()` skips (ASCII white space as C's `isspace` defines it, non-ASCII `str.isspace` characters), a sign of "", "+" or "-", a prefix of "", "0b", "0B", "0b_" or "0B_", a well-formed body and more skipped characters are read as the body's digits with the sign applied |
| Answers.Bin2DecRejectsSeparator | answers.py:24-25 | the information separator U+001C in front of a digit is not skipped, so `"\x1c1"` is rejected |
| Answers.Bin2DecAcceptedShape | answers.py:24-25 | every accepted input has that shape, and its value is the one the shape denotes, so anything else is rejected |
| Answers.Bin2DecOfPlainDigits | answers.py:24-25 | a plain binary digit string is read as its positional value |
| Answers.Bin2DecOfNegatedDigits | answers.py:24-25 | '-' followed by binary digits is read as the negated value |
| Answers.PyBin | answers.py:29 | `bin(x)` is "0b", after a '-' for negative x, followed by canonical binary digits whose value is the magnitude of x |
| Answers.Dec2Bin | answers.py:28-29 | for non-negative x the result is the canonical binary digits; for negative x it is 'b' followed by the digits of -x |
| Answers.Dec2BinRoundTrip | answers.py:28-29 | `Bin2Dec(Dec2Bin(x)) == x` for every non-negative x |
| Answers.Bin2DecRoundTrip | answers.py:24-25 | every canonical binary string is `Dec2Bin` of the number `Bin2Dec` reads from it |
| Answers.Dec2BinNegativeIsRejected | answers.py:28-29 | for every negative x, `Bin2Dec` rejects `Dec2Bin(x)` |
| Answers.Dec2BinOfMinusFive | answers.py:28-29 | `Dec2Bin(-5)` is "b101", which `Bin2Dec` rejects |
| Answers.Dec2BinSigned | answers.py:28-29 | the non-negative case agrees with `Dec2Bin`; a negative number is '-' followed by the digits of its magnitude |
| Answers.Dec2BinSignedRoundTrip | answers.py:28-29 | `Bin2Dec(Dec2BinSigned(x)) == x` for every integer |
| Answers.ReverseString | answers.py:46-47 | same length, and position i holds the character at position n-1-i |
| Answers.ReverseStringInvolution | answers.py:46-47 | reversing twice gives the original string |
| Dicts.ToMapAt | answers.py:50-51 | with distinct keys every entry is what the mapping holds for its key |
| Dicts.ToMapWitness | answers.py:50-51 | every key of the mapping comes from an entry carrying the mapped value |
| Dicts.ToMapKeys | answers.py:50-51 | the keys of the mapping are exactly the keys of the entries |
| Dicts.ToMapSize | answers.py:20-21 | with distinct keys the mapping has one key per entry |
| Dicts.Put | answers.py:41-42 | a present key keeps its place and a new key is appended, every other key stays in place, and keys stay distinct |
| Dicts.PutUpdatesMap | answers.py:41-42 | `d[k] = v` sets `k` to `v` in the mapping and leaves every other key alone |
| Dicts.PutAll | answers.py:42 | `update` keeps the original keys in their places, the key set becomes the union, and keys stay distinct |
| Dicts.PutAllUpdatesMap | answers.py:42 | after `update` the mapping is the original overridden by the argument's |
| Dicts.PutAllFresh | answers.py:42 | updating with entries whose keys are all new appends them in order |
| Dicts.MergeDicts | answers.py:40-43 | the merged key set is the union of both, keys stay distinct, and dict1's keys come first in their order |
| Dicts.MergeDictsValues | answers.py:40-43 | keys of dict2 take dict2's value and every other key keeps dict1's |
| Dicts.MergeDisjointConcatenates | answers.py:40-43 | merging dicts with no key in common concatenates their entries |
| Dicts.InvertDict | answers.py:50-51 | the inverted dict has distinct keys, and they are exactly the values of the input |
| Dicts.InvertDictMapsBack | answers.py:50-51 | each key of the inverted dict is a value of the input, and the input maps the key it is sent to back to it |
| Dicts.InvertInjective | answers.py:50-51 | a one-to-one dict inverts entry by entry, its inverse is one-to-one, and inverting twice gives it back |
| Dicts.ExtractKeys | answers.py:20-21 | one key per entry, in entry order |
| Dicts.ExtractKeysOnePerKey | answers.py:20-21 | as many keys as the mapping has, exactly its keys, none twice |
| Dicts.Dict2TupleList | answers.py:36-37 | one pair per entry (weaker: the contents are stated by `Dicts.Dict2TupleListOnePerKey`) |
| Dicts.Dict2TupleListOnePerKey | answers.py:36-37 | one pair per key of the mapping, each pair holding that key's value, and every key's pair present |
| Dicts.SumDict | answers.py:32-33 | a dict with no number values sums to 0, and one whose values contribute nothing negative sums to at least 0 |
| Dicts.SumDictAppend | answers.py:32-33 | the sum of a concatenation is the sum of the parts |
| Dicts.SumDictPut | answers.py:32-33 | `d[k] = v` changes the sum by the contribution of `v` minus that of `k`'s old value, so the sum follows the mapping |
| Dicts.SumDictOfDisjointMerge | answers.py:32-33 | merging dicts with no key in common adds their sums |

## Left out

- DOM rendering, the Ace editor settings modal, Bootstrap, the hint sound, the title and instructions text, and media HTML are outside the model. The view keeps only the affordances: editor shown or writable, submit enabled, answer field, hints header, and media kind and source.
- `fetch` plumbing and JSON are outside the model. Requests are returned as values, replies are inputs, and a transport failure is its own reply constructor.
- The initial state of the page template is not part of this model. `Session.Init` takes everything hidden and disabled.
- The code-submission path of the browser (posting the editor contents to `/submit`) is not in `static/js/app.js`. It is modelled on the server side only, by `Grading.Submit`.
- `exec`, the learner's Python code, and the exception text of `Error: …` are parameters. The code is a value that raises or yields an optional `foo`, and error messages are constructors.
- Grading.RunUserCode: the percentage string `f"{percentage}% of tests passed."` is floating point. The model returns the passed and total counts instead. The model also covers only learner code that terminates and raises only subclasses of `Exception`, which app.py:43 catches. Code that calls `exit()` or `sys.exit()`, or raises `KeyboardInterrupt`, at top level or inside `foo`, escapes `run_user_code` and `submit`, so no reply is sent. Code that never returns hangs the request. In both cases `user_data` is left untouched, so the ledger properties still hold.
- Flask request parsing (`int(request.form[...])`), reading and writing `data/config.json`, and loading `data/challenges.json` are I/O. The user record and the catalog are parameters and results.
- The `/get_hint` and `/submit_results` endpoints the browser calls are not defined in `app.py`, which routes only `/` and `/submit` (app.py:47, 52). Against that server Flask answers both with a 404 HTML page, `response.json()` rejects, and the `catch` handler runs. Every hint fetch and every answer submission therefore takes the `FetchFailed` or the `AnswerFetchFailed` path of the model. Replies from some other server that does define them enter as inputs.
- Dicts.SumDict: float values are not modelled. The values are ints, bools (which count as 0 or 1, since `bool` is a subclass of `int`), strings and `None`.
- Answers.Bin2Dec: Python's `int()` also accepts non-ASCII Unicode decimal digits whose value is 0 or 1, for example the Arabic-Indic digit one. The model accepts only the ASCII characters '0', '1' and '_' in the body.
- Grading.LedgerInvariant: this lemma, and the duplicate-free promise of `Grading.Submit`, assume three things the server does not guarantee. First, executing learner code has no side effects: in the source, `exec` runs in the server process (app.py:25) and the code could rewrite `user_data`. Second, `==` is plain equality: app.py:35 calls the `__eq__` of the learner's result, which could return True for anything. Third, submits are handled one at a time: `app.run(debug=True)` serves requests on several threads, so two submits could interleave between the check at app.py:68 and the append at app.py:71.
- Session.JsSpaces: the white-space set is a fixed list of ECMAScript's WhiteSpace and LineTerminator code points. Later additions to Unicode category Zs are not tracked. The same holds for the non-ASCII part of `Answers.IntSpaces`, the characters `int()` skips around a numeral (C's `isspace` for ASCII, `str.isspace` beyond it).
- Dicts.InvertDict: values are assumed hashable and are compared with Dafny equality. In Python, a list, dict or set value makes `{v: k ...}` raise `TypeError`, which the model does not represent. Python also merges keys that are equal across types: 1, 1.0 and True are one key, so `{'a': 1, 'b': True}` inverts to `{1: 'b'}`, and the model's key is whatever the last such value was. The model's value type has no such cross-type equalities.
- Dicts.Dict2TupleList: the function itself states only the length. Its content property is the lemma `Dicts.Dict2TupleListOnePerKey`.
- The module-level redefinitions of `foo` in `answers.py` are modelled as separately named functions. Python keeps only the last definition.

## Findings

| source | as written | input that shows it | evidently intended | confidence | as-written member | corrected member |
|---|---|---|---|---|---|---|
| answers.py:28-29 | `bin(x)[2:]` removes the first two characters, which are "0b" only for x >= 0; for negative x it removes "-0" and leaves "b…" | x = -5 gives "b101", which is not a binary numeral (`int("b101", 2)` raises) and loses the sign | the binary form of x with its sign, "-101", which `int(…, 2)` reads back as x | not executed | Answers.Dec2BinNegativeIsRejected | Answers.Dec2BinSignedRoundTrip |

=== FILE: answers.dfy ===
/** The scalar reference solutions of answers.py. Every one of them is called
    `foo` in the source; here each gets the name of the challenge it solves. */
module Answers {
  import opened Wrappers
  import opened Numerals
  import Text

  // ---------------------------------------------------------------------
  // OddEven

  /** `'Even' if x % 2 == 0 else 'Odd'`. Python's `%` floors. For the divisor
      2 it agrees with Dafny's Euclidean `%`, so negative `x` behave alike. */
  function OddEven(x: int): (r: string)
    ensures r == "Even" || r == "Odd"
  {
    if x % 2 == 0 then "Even" else "Odd"
  }

  /** Doubles are "Even", their successors "Odd". Every integer is one of the
      two, so this determines `OddEven` completely. */
  lemma OddEvenOfDoubles(k: int)
    ensures OddEven(2 * k) == "Even"
    ensures OddEven(2 * k + 1) == "Odd"
    ensures OddEven(k) != OddEven(k + 1)
  {
  }

  // ---------------------------------------------------------------------
  // FizzBuzz

  /** `w` is the correct FizzBuzz word for the 1-based position `k`. */
  predicate IsFizzBuzzWord(k: nat, w: string) {
    && (w == "FizzBuzz" <==> k % 15 == 0)
    && (w == "Fizz" <==> k % 3 == 0 && k % 5 != 0)
    && (w == "Buzz" <==> k % 5 == 0 && k % 3 != 0)
    && (k % 3 != 0 && k % 5 != 0 ==> w == ToDigits(k, 10))
  }

  /** The FizzBuzz loop over `range(1, n + 1)`. */
  method FizzBuzz(n: int) returns (ans: seq<string>)
    ensures |ans| == (if n > 0 then n else 0)
    ensures forall i :: 0 <= i < |ans| ==> IsFizzBuzzWord(i + 1, ans[i])
  {
    ans := [];
    var num := 1;
    while num < n + 1
      invariant 1 <= num <= (if n > 0 then n + 1 else 1)
      invariant |ans| == num - 1
      invariant forall i :: 0 <= i < |ans| ==> IsFizzBuzzWord(i + 1, ans[i])
    {
      var word;
      if num % 5 == 0 && num % 3 == 0 {
        word := "FizzBuzz";
      } else if num % 3 == 0 {
        word := "Fizz";
      } else if num % 5 == 0 {
        word := "Buzz";
      } else {
        word := ToDigits(num, 10);
        assert word[0] != 'F' && word[0] != 'B';
      }
      ans := ans + [word];
      num := num + 1;
    }
  }

  // ---------------------------------------------------------------------
  // Bin2Dec: int(x, 2)

  /** The characters `int()` skips around a numeral. ASCII characters are
      tested with C's `isspace`, which knows only tab, line feed, vertical
      tab, form feed, carriage return and space; the information separators
      U+001C to U+001F are kept and rejected. Non-ASCII characters that
      `str.isspace()` accepts are first turned into spaces and so skipped.
      Stripping for `int()` is `Text.Strip(x, IntSpaces)`. */
  const IntSpaces: set<char> := {
    '\U{9}', '\U{A}', '\U{B}', '\U{C}', '\U{D}', ' ',
    '\U{85}', '\U{A0}', '\U{1680}', '\U{2000}', '\U{2001}', '\U{2002}', '\U{2003}', '\U{2004}',
    '\U{2005}', '\U{2006}', '\U{2007}', '\U{2008}', '\U{2009}', '\U{200A}', '\U{2028}', '\U{2029}',
    '\U{202F}', '\U{205F}', '\U{3000}'}

  /** An information separator in front of a numeral is not skipped. */
  lemma Bin2DecRejectsSeparator()
    ensures Bin2Dec("\U{1C}1") == None
  {
    var x := "\U{1C}1";
    assert x[0] !in IntSpaces && x[|x| - 1] !in IntSpaces;
    Text.StripUnpadded(x, IntSpaces);
    assert SplitSign(x) == (false, x);
    assert SkipPrefix(x) == x;
    assert !ValidBinaryBody(x);
  }

  /** Binary digits with single underscores between them: non-empty, no
      underscore at either end, no two underscores in a row. */
  predicate ValidBinaryBody(b: string) {
    && |b| >= 1
    && (forall i :: 0 <= i < |b| ==> b[i] == '0' || b[i] == '1' || b[i] == '_')
    && b[0] != '_' && b[|b| - 1] != '_'
    && (forall i, j :: 0 <= i < |b| && 0 <= j < |b| && j == i + 1 ==> !(b[i] == '_' && b[j] == '_'))
  }

  /** The string without its underscores. */
  function DropUnderscores(s: string): (r: string)
    ensures |r| <= |s|
    ensures forall i :: 0 <= i < |r| ==> r[i] != '_'
    ensures (forall i :: 0 <= i < |s| ==> s[i] != '_') ==> r == s
  {
    if s == [] then []
    else (if s[0] == '_' then [] else [s[0]]) + DropUnderscores(s[1..])
  }

  lemma {:induction false} DropUnderscoresKeepsBinaryDigits(s: string)
    requires forall i :: 0 <= i < |s| ==> s[i] == '0' || s[i] == '1' || s[i] == '_'
    ensures AllDigits(DropUnderscores(s), 2)
  {
    if s != [] {
      DropUnderscoresKeepsBinaryDigits(s[1..]);
      var rest := DropUnderscores(s[1..]);
      var head: string := if s[0] == '_' then [] else [s[0]];
      forall i | 0 <= i < |head + rest| ensures IsDigit((head + rest)[i], 2) {
        if i >= |head| { assert (head + rest)[i] == rest[i - |head|]; }
      }
    }
  }

  /** The "0b" or "0B" prefix. */
  predicate HasBinaryPrefix(s: string) {
    |s| >= 2 && s[0] == '0' && (s[1] == 'b' || s[1] == 'B')
  }

  /** A leading sign: whether it is '-', and the rest. */
  function SplitSign(t: string): (bool, string) {
    if t != [] && (t[0] == '-' || t[0] == '+') then (t[0] == '-', t[1..]) else (false, t)
  }

  /** The text after an optional "0b" prefix and one optional underscore. */
  function SkipPrefix(u: string): string {
    if HasBinaryPrefix(u) then
      (if |u| > 2 && u[2] == '_' then u[3..] else u[2..])
    else u
  }

  /** The value of a binary body, or `None` if it is malformed. */
  function ParseBody(body: string): (r: Option<nat>)
    ensures r.Some? <==> ValidBinaryBody(body)
  {
    if ValidBinaryBody(body) then
      DropUnderscoresKeepsBinaryDigits(body);
      Some(ValueOf(DropUnderscores(body), 2))
    else
      None
  }

  /** `int(x, 2)`: optional white space, an optional sign, an optional "0b"
      prefix that may be followed by one underscore, then binary digits with
      single underscores between them. Anything else raises `ValueError`,
      here `None`. */
  function Bin2Dec(x: string): (r: Option<int>)
    ensures x == [] ==> r == None
    ensures r.Some? ==> Text.Strip(x, IntSpaces) != [] && (r.value < 0 ==> Text.Strip(x, IntSpaces)[0] == '-')
  {
    var t := Text.Strip(x, IntSpaces);
    ApplySign(SplitSign(t).0, ParseBody(SkipPrefix(SplitSign(t).1)))
  }

  /** A parsed magnitude with its sign applied. */
  function ApplySign(negative: bool, magnitude: Option<nat>): Option<int> {
    match magnitude
    case None => None
    case Some(v) => Some(Signed(if negative then "-" else "", v))
  }

  /** The value of a well-formed body: its digits, underscores dropped. */
  function BodyValue(b: string): nat
    requires ValidBinaryBody(b)
  {
    DropUnderscoresKeepsBinaryDigits(b);
    ValueOf(DropUnderscores(b), 2)
  }

  /** Removing underscores commutes with concatenation. */
  lemma {:induction false} DropUnderscoresAppend(a: string, b: string)
    ensures DropUnderscores(a + b) == DropUnderscores(a) + DropUnderscores(b)
  {
    if a != [] {
      var head: string := if a[0] == '_' then [] else [a[0]];
      var ab := a + b;
      assert ab[0] == a[0] && ab[1..] == a[1..] + b;
      DropUnderscoresAppend(a[1..], b);
      assert DropUnderscores(ab) == head + DropUnderscores(a[1..] + b);
      assert DropUnderscores(a) == head + DropUnderscores(a[1..]);
    } else {
      assert a + b == b;
    }
  }

  /** Two well-formed bodies joined directly or by one underscore form a
      well-formed body. */
  lemma JoinIsValid(p: string, sep: string, q: string)
    requires ValidBinaryBody(p) && ValidBinaryBody(q)
    requires sep == "" || sep == "_"
    ensures ValidBinaryBody(p + sep + q)
  {
    var b := p + sep + q;
    var n := |p| + |sep|;
    assert forall i :: 0 <= i < |p| ==> b[i] == p[i];
    assert forall i :: n <= i < |b| ==> b[i] == q[i - n];
    assert b[|b| - 1] == q[|q| - 1];
  }

  /** A single underscore between two well-formed bodies changes nothing:
      both joins parse, to the digits of the two parts side by side. */
  lemma ParseBodyUnderscoreJoin(p: string, q: string)
    requires ValidBinaryBody(p) && ValidBinaryBody(q)
    ensures ValidBinaryBody(p + q) && ValidBinaryBody(p + "_" + q)
    ensures DropUnderscores(p + "_" + q) == DropUnderscores(p + q) == DropUnderscores(p) + DropUnderscores(q)
    ensures ParseBody(p + "_" + q) == ParseBody(p + q) == Some(BodyValue(p + q))
  {
    JoinIsValid(p, "", q);
    JoinIsValid(p, "_", q);
    DropUnderscoresJoin(p, q);
  }

  /** Removing underscores from two strings joined by one underscore is
      removing them from each part. */
  lemma DropUnderscoresJoin(p: string, q: string)
    ensures DropUnderscores(p + "_" + q) == DropUnderscores(p + q) == DropUnderscores(p) + DropUnderscores(q)
  {
    DropUnderscoresAppend(p, q);
    DropUnderscoresAppend(p, "_");
    DropUnderscoresAppend(p + "_", q);
    assert DropUnderscores("_") == [];
  }

  /** The signs `int()` accepts in front of the digits. */
  const Signs: set<string> := {"", "+", "-"}

  /** The prefixes `int(x, 2)` accepts between the sign and the digits. */
  const Prefixes: set<string> := {"", "0b", "0B", "0b_", "0B_"}

  /** A magnitude with the given sign applied. */
  function Signed(sign: string, v: nat): int {
    if sign == "-" then -(v as int) else v as int
  }

  /** A sign in front of text that does not start with one splits off. */
  lemma SplitSignOf(sign: string, u: string)
    requires sign in Signs && u != [] && u[0] != '-' && u[0] != '+'
    ensures SplitSign(sign + u) == (sign == "-", u)
  {
    if sign != "" {
      assert (sign + u)[1..] == u;
    } else {
      assert sign + u == u;
    }
  }

  /** An accepted prefix in front of a well-formed body is skipped. */
  lemma SkipPrefixOf(prefix: string, b: string)
    requires prefix in Prefixes && b != [] && b[0] != '_'
    requires |b| >= 2 ==> b[1] != 'b' && b[1] != 'B'
    ensures SkipPrefix(prefix + b) == b
  {
    var u := prefix + b;
    if prefix == "" {
      assert u == b;
    } else if prefix == "0b" || prefix == "0B" {
      assert u[2] == b[0];
      assert u[2..] == b;
    } else {
      assert u[3..] == b;
    }
  }

  /** Stripping an input of the accepted shape leaves its sign, prefix and
      body. */
  lemma StripOfShape(w1: string, sign: string, prefix: string, b: string, w2: string)
    requires Text.AllIn(w1, IntSpaces) && Text.AllIn(w2, IntSpaces)
    requires sign in Signs && prefix in Prefixes && ValidBinaryBody(b)
    ensures Text.Strip(w1 + sign + prefix + b + w2, IntSpaces) == sign + prefix + b
  {
    var m := sign + prefix + b;
    assert w1 + sign + prefix + b + w2 == w1 + m + w2;
    assert m[0] == '0' || m[0] == '1' || m[0] == '-' || m[0] == '+' by {
      if sign == "" && prefix == "" { assert m[0] == b[0]; }
    }
    assert m[|m| - 1] == b[|b| - 1];
    Text.StripPadded(w1, m, w2, IntSpaces);
  }

  /** Every input of the shape `int(x, 2)` accepts is read as the value it
      denotes: white space, an optional sign, an optional "0b" or "0B" with
      one optional underscore, a well-formed body, white space. */
  lemma Bin2DecAccepts(w1: string, sign: string, prefix: string, b: string, w2: string)
    requires Text.AllIn(w1, IntSpaces) && Text.AllIn(w2, IntSpaces)
    requires sign in Signs && prefix in Prefixes && ValidBinaryBody(b)
    ensures Bin2Dec(w1 + sign + prefix + b + w2) == Some(Signed(sign, BodyValue(b)))
  {
    BodyStart(b);
    ParseBodyValue(b);
    var u := prefix + b;
    StripOfShape(w1, sign, prefix, b, w2);
    Associate(sign, prefix, b);
    UnsignedStart(prefix, b);
    SplitSignOf(sign, u);
    SkipPrefixOf(prefix, b);
    Bin2DecOfParts(w1 + sign + prefix + b + w2, sign, u, b, BodyValue(b));
  }

  lemma Associate(a: string, b: string, c: string)
    ensures a + b + c == a + (b + c)
  {
  }

  /** A well-formed body starts with a binary digit, and its second
      character, if any, is a digit or an underscore. */
  lemma BodyStart(b: string)
    requires ValidBinaryBody(b)
    ensures b[0] == '0' || b[0] == '1'
    ensures |b| >= 2 ==> b[1] != 'b' && b[1] != 'B'
  {
  }

  /** A well-formed body parses to its value. */
  lemma ParseBodyValue(b: string)
    requires ValidBinaryBody(b)
    ensures ParseBody(b) == Some(BodyValue(b))
  {
  }

  /** The text after the sign starts with a digit, never with a sign. */
  lemma UnsignedStart(prefix: string, b: string)
    requires prefix in Prefixes && b != [] && (b[0] == '0' || b[0] == '1')
    ensures (prefix + b)[0] == '0' || (prefix + b)[0] == '1'
  {
    if prefix == "" { assert (prefix + b)[0] == b[0]; }
  }

  /** `Bin2Dec` put together from its steps: the stripped text, the sign
      split off it, the body after the prefix, and that body's value. */
  lemma Bin2DecOfParts(x: string, sign: string, u: string, b: string, v: nat)
    requires Text.Strip(x, IntSpaces) == sign + u
    requires SplitSign(sign + u) == (sign == "-", u)
    requires SkipPrefix(u) == b && ParseBody(b) == Some(v)
    ensures Bin2Dec(x) == Some(Signed(sign, v))
  {
  }

  /** Conversely, every input `Bin2Dec` accepts has that shape, and its
      value is the one the shape denotes. */
  lemma Bin2DecAcceptedShape(x: string) returns (w1: string, sign: string, prefix: string, b: string, w2: string)
    requires Bin2Dec(x).Some?
    ensures x == w1 + sign + prefix + b + w2
    ensures Text.AllIn(w1, IntSpaces) && Text.AllIn(w2, IntSpaces)
    ensures sign in Signs && prefix in Prefixes && ValidBinaryBody(b)
    ensures Bin2Dec(x) == Some(Signed(sign, BodyValue(b)))
  {
    var t := Text.Strip(x, IntSpaces);
    w1, w2 := StripShape(x);
    var u := SplitSign(t).1;
    sign := SignShape(t);
    b := SkipPrefix(u);
    prefix := PrefixShape(u);
    assert ParseBody(b).Some? by {
      Bin2DecOfParsed(x);
    }
    Regroup(x, w1, t, w2, sign, u, prefix, b);
    Bin2DecAccepts(w1, sign, prefix, b, w2);
  }

  /** `Bin2Dec` accepts only when the body after the sign and prefix
      parses. */
  lemma Bin2DecOfParsed(x: string)
    requires Bin2Dec(x).Some?
    ensures ParseBody(SkipPrefix(SplitSign(Text.Strip(x, IntSpaces)).1)).Some?
  {
  }

  lemma Regroup(x: string, w1: string, t: string, w2: string, sign: string, u: string, prefix: string, b: string)
    requires x == w1 + t + w2 && t == sign + u && u == prefix + b
    ensures x == w1 + sign + prefix + b + w2
  {
  }

  /** The input is the stripped text with white space on either side. */
  lemma StripShape(x: string) returns (w1: string, w2: string)
    ensures x == w1 + Text.Strip(x, IntSpaces) + w2
    ensures Text.AllIn(w1, IntSpaces) && Text.AllIn(w2, IntSpaces)
  {
    var t := Text.Strip(x, IntSpaces);
    Text.StripIsInnerSlice(x, IntSpaces);
    var a := Text.Leading(x, IntSpaces);
    w1 := x[..a];
    w2 := x[a + |t|..];
    assert x == w1 + t + w2;
  }

  /** The sign `SplitSign` takes off is one of the accepted signs. */
  lemma SignShape(t: string) returns (sign: string)
    ensures sign in Signs && t == sign + SplitSign(t).1
  {
    if t != [] && (t[0] == '-' || t[0] == '+') {
      sign := t[..1];
      assert sign == "-" || sign == "+";
      assert t == sign + t[1..];
    } else {
      sign := "";
      assert t == sign + t;
    }
  }

  /** The prefix `SkipPrefix` takes off is one of the accepted prefixes. */
  lemma PrefixShape(u: string) returns (prefix: string)
    ensures prefix in Prefixes && u == prefix + SkipPrefix(u)
  {
    if HasBinaryPrefix(u) {
      var n := if |u| > 2 && u[2] == '_' then 3 else 2;
      prefix := u[..n];
      assert prefix == "0b" || prefix == "0B" || prefix == "0b_" || prefix == "0B_";
      assert u == prefix + u[n..];
    } else {
      prefix := "";
      assert u == prefix + u;
    }
  }

  /** A plain binary digit string is a well-formed body worth its
      positional value. */
  lemma ParseBodyOfDigits(x: string)
    requires x != [] && AllDigits(x, 2)
    ensures ParseBody(x) == Some(ValueOf(x, 2))
  {
    assert ValidBinaryBody(x);
  }

  /** A plain binary digit string has no prefix to skip. */
  lemma SkipPrefixOfDigits(x: string)
    requires x != [] && AllDigits(x, 2)
    ensures SkipPrefix(x) == x
  {
    if |x| >= 2 { assert IsDigit(x[1], 2); }
  }

  /** `Bin2Dec` reads a plain binary digit string as its positional value. */
  lemma Bin2DecOfPlainDigits(d: string)
    requires d != [] && AllDigits(d, 2)
    ensures Bin2Dec(d) == Some(ValueOf(d, 2))
  {
    Text.StripUnpadded(d, IntSpaces);
    SkipPrefixOfDigits(d);
    ParseBodyOfDigits(d);
    assert SplitSign(d) == (false, d);
  }

  /** `Bin2Dec` reads '-' followed by a plain binary digit string as the
      negated value. */
  lemma Bin2DecOfNegatedDigits(s: string, n: nat)
    requires |s| >= 2 && s[0] == '-' && AllDigits(s[1..], 2) && ValueOf(s[1..], 2) == n
    ensures Bin2Dec(s) == Some(-(n as int))
  {
    var d := s[1..];
    assert s[|s| - 1] == d[|d| - 1];
    Text.StripUnpadded(s, IntSpaces);
    assert SplitSign(s) == (true, d);
    SkipPrefixOfDigits(d);
    ParseBodyOfDigits(d);
  }

  // ---------------------------------------------------------------------
  // Dec2Bin: bin(x)[2:]

  /** Python's `bin(x)`: "0b", after a '-' when `x` is negative, then the
      canonical binary digits of the magnitude. */
  function PyBin(x: int): (r: string)
    ensures |r| >= 3
    ensures x >= 0 ==> r[..2] == "0b" && Canonical(r[2..], 2) && ValueOf(r[2..], 2) == x
    ensures x < 0 ==> r[..3] == "-0b" && Canonical(r[3..], 2) && ValueOf(r[3..], 2) == -x
  {
    var n: nat := if x < 0 then -x else x;
    ValueOfToDigits(n, 2);
    var sign := if x < 0 then "-" else "";
    var r := sign + "0b" + ToDigits(n, 2);
    assert r[|sign| + 2..] == ToDigits(n, 2);
    r
  }

  /** `bin(x)[2:]`, which drops the "0b" of a non-negative number but only
      the "-0" of a negative one. */
  function Dec2Bin(x: int): (r: string)
    ensures x >= 0 ==> Canonical(r, 2)
    ensures x < 0 ==> |r| >= 2 && r[0] == 'b' && r[1..] == ToDigits(-x, 2)
  {
    PyBin(x)[2..]
  }

  /** For non-negative `x`, `Bin2Dec` reads `Dec2Bin(x)` back as `x`. */
  lemma Dec2BinRoundTrip(x: int)
    requires x >= 0
    ensures Bin2Dec(Dec2Bin(x)) == Some(x)
  {
    assert Dec2Bin(x) == ToDigits(x, 2);
    ValueOfToDigits(x, 2);
    Bin2DecOfPlainDigits(ToDigits(x, 2));
  }

  /** Every canonical binary string is `Dec2Bin` of the number it denotes. */
  lemma Bin2DecRoundTrip(s: string)
    requires Canonical(s, 2)
    ensures Bin2Dec(s).Some? && Bin2Dec(s).value >= 0 && Dec2Bin(Bin2Dec(s).value) == s
  {
    Bin2DecOfPlainDigits(s);
    ToDigitsOfValue(s, 2);
  }

  /** For negative `x`, `Dec2Bin(x)` starts with 'b' and `Bin2Dec` rejects it. */
  lemma Dec2BinNegativeIsRejected(x: int)
    requires x < 0
    ensures Bin2Dec(Dec2Bin(x)) == None
  {
    var s := Dec2Bin(x);
    var d := ToDigits(-x, 2);
    assert s[|s| - 1] == d[|d| - 1];
    assert IsDigit(s[|s| - 1], 2);
    RejectsLeadingB(s);
  }

  /** Text that starts with 'b' and does not end in white space is not a
      binary numeral. */
  lemma RejectsLeadingB(s: string)
    requires |s| >= 1 && s[0] == 'b' && s[|s| - 1] !in IntSpaces
    ensures Bin2Dec(s) == None
  {
    Text.StripUnpadded(s, IntSpaces);
    assert SplitSign(s) == (false, s);
    assert SkipPrefix(s) == s;
    assert !ValidBinaryBody(s);
  }

  lemma Dec2BinOfMinusFive()
    ensures Dec2Bin(-5) == "b101"
    ensures Bin2Dec(Dec2Bin(-5)) == None
  {
    assert ToDigits(1, 2) == "1";
    assert ToDigits(2, 2) == ToDigits(1, 2) + "0" == "10";
    assert ToDigits(5, 2) == ToDigits(2, 2) + "1" == "101";
    assert Dec2Bin(-5) == "-0b101"[2..] == "b101";
    Dec2BinNegativeIsRejected(-5);
  }

  /** The binary form with a sign for negative numbers: "-101" for -5. */
  function Dec2BinSigned(x: int): (r: string)
    ensures x >= 0 ==> r == Dec2Bin(x)
    ensures x < 0 ==> |r| >= 2 && r[0] == '-' && r[1..] == ToDigits(-x, 2)
  {
    if x < 0 then ['-'] + ToDigits(-x, 2) else ToDigits(x, 2)
  }

  /** `Bin2Dec` reads `Dec2BinSigned(x)` back as `x`, for every integer. */
  lemma Dec2BinSignedRoundTrip(x: int)
    ensures Bin2Dec(Dec2BinSigned(x)) == Some(x)
  {
    if x >= 0 {
      SignedNonNegative(x);
    } else {
      SignedNegative(x);
    }
  }

  /** The non-negative half of `Dec2BinSignedRoundTrip`. */
  lemma SignedNonNegative(x: int)
    requires x >= 0
    ensures Bin2Dec(Dec2BinSigned(x)) == Some(x)
  {
    ValueOfToDigits(x, 2);
    Bin2DecOfPlainDigits(Dec2BinSigned(x));
  }

  /** The negative half of `Dec2BinSignedRoundTrip`. */
  lemma SignedNegative(x: int)
    requires x < 0
    ensures Bin2Dec(Dec2BinSigned(x)) == Some(x)
  {
    var n: nat := -x;
    ValueOfToDigits(n, 2);
    Bin2DecOfNegatedDigits(Dec2BinSigned(x), n);
  }

  // ---------------------------------------------------------------------
  // ReverseString: s[::-1]

  function ReverseString(s: string): (r: string)
    ensures |r| == |s|
    ensures forall i :: 0 <= i < |s| ==> r[i] == s[|s| - 1 - i]
  {
    if s == [] then [] else ReverseString(s[1..]) + [s[0]]
  }

  /** Reversing twice gives the original string. */
  lemma ReverseStringInvolution(s: string)
    ensures ReverseString(ReverseString(s)) == s
  {
  }
}

=== FILE: dicts.dfy ===
/** The dict reference solutions of answers.py: MergeDicts, InvertDict,
    ExtractKeys, Dict2TupleList and SumDict.

    A Python dict is modelled by its entries in insertion order, a sequence
    of (key, value) pairs. `ToMap` gives the mapping those entries denote,
    and `Put` is the assignment `d[k] = v`: it overwrites a present key where
    it stands and appends a new one. Every dict Python builds has distinct
    keys, and every operation here keeps them distinct. */
module Dicts {
  import opened Wrappers
  import Lookup

  /** A dict as its (key, value) entries in insertion order. */
  type Dict<K, V> = seq<(K, V)>

  /** No key occurs twice. */
  predicate DistinctKeys<K(==), V>(d: Dict<K, V>) {
    forall i, j :: 0 <= i < |d| && 0 <= j < |d| && i != j ==> d[i].0 != d[j].0
  }

  /** The keys that occur in `d`. */
  function KeySet<K, V>(d: Dict<K, V>): set<K> {
    set i | 0 <= i < |d| :: d[i].0
  }

  /** The values that occur in `d`. */
  function ValueSet<K, V>(d: Dict<K, V>): set<V> {
    set i | 0 <= i < |d| :: d[i].1
  }

  /** The mapping `d` denotes: a later entry for a key overrides an earlier
      one, as in a dict display or comprehension. */
  function ToMap<K, V>(d: Dict<K, V>): map<K, V> {
    if d == [] then map[] else ToMap(d[..|d| - 1])[d[|d| - 1].0 := d[|d| - 1].1]
  }

  /** The map's keys are exactly the keys of the entries. */
  lemma {:induction false} ToMapKeys<K, V>(d: Dict<K, V>)
    ensures ToMap(d).Keys == KeySet(d)
    decreases |d|
  {
    if d != [] {
      var p := d[..|d| - 1];
      ToMapKeys(p);
      assert KeySet(d) == KeySet(p) + {d[|d| - 1].0} by {
        assert forall i :: 0 <= i < |p| ==> p[i] == d[i];
      }
    }
  }

  /** With distinct keys, every entry is what the map holds for its key. */
  lemma {:induction false} ToMapAt<K, V>(d: Dict<K, V>, i: nat)
    requires DistinctKeys(d) && i < |d|
    ensures d[i].0 in ToMap(d) && ToMap(d)[d[i].0] == d[i].1
    decreases |d|
  {
    var n := |d| - 1;
    if i < n {
      var p := d[..n];
      assert p[i] == d[i];
      ToMapAt(p, i);
    }
  }

  /** Every key of the map comes from an entry of `d` carrying its value. */
  lemma {:induction false} ToMapWitness<K, V>(d: Dict<K, V>, k: K) returns (i: nat)
    requires k in ToMap(d)
    ensures i < |d| && d[i] == (k, ToMap(d)[k])
    decreases |d|
  {
    var n := |d| - 1;
    if d[n].0 == k {
      i := n;
    } else {
      var p := d[..n];
      i := ToMapWitness(p, k);
      assert p[i] == d[i];
    }
  }

  /** With distinct keys, the map has one key per entry. */
  lemma {:induction false} ToMapSize<K, V>(d: Dict<K, V>)
    requires DistinctKeys(d)
    ensures |ToMap(d)| == |d|
    decreases |d|
  {
    if d != [] {
      var n := |d| - 1;
      var p := d[..n];
      ToMapSize(p);
      ToMapKeys(p);
      assert d[n].0 !in KeySet(p);
    }
  }

  /** The map of a concatenation: the second part overrides the first. */
  lemma {:induction false} ToMapAppend<K, V>(a: Dict<K, V>, b: Dict<K, V>)
    ensures ToMap(a + b) == ToMap(a) + ToMap(b)
    decreases |b|
  {
    if b == [] {
      assert a + b == a;
    } else {
      var n := |b| - 1;
      var ab := a + b;
      assert ab[..|ab| - 1] == a + b[..n];
      assert ab[|ab| - 1] == b[n];
      ToMapAppend(a, b[..n]);
      UnionUpdate(ToMap(a), ToMap(b[..n]), b[n].0, b[n].1);
    }
  }

  /** Updating a union updates its right operand. */
  lemma UnionUpdate<K, V>(m1: map<K, V>, m2: map<K, V>, k: K, v: V)
    ensures (m1 + m2)[k := v] == m1 + m2[k := v]
  {
  }

  /** Updates of two different keys commute. */
  lemma UpdatesCommute<K, V>(m: map<K, V>, k1: K, v1: V, k2: K, v2: V)
    requires k1 != k2
    ensures m[k1 := v1][k2 := v2] == m[k2 := v2][k1 := v1]
  {
  }

  /** Overwriting the entry at `i` with a new value for the same key
      overwrites that key in the map. */
  lemma {:induction false} ToMapUpdateAt<K, V>(d: Dict<K, V>, i: nat, v: V)
    requires DistinctKeys(d) && i < |d|
    ensures ToMap(d[i := (d[i].0, v)]) == ToMap(d)[d[i].0 := v]
    decreases |d|
  {
    var k := d[i].0;
    var e := d[i := (k, v)];
    var n := |d| - 1;
    var p := d[..n];
    if i == n {
      assert e[..n] == p;
    } else {
      assert e[..n] == p[i := (k, v)];
      assert p[i] == d[i];
      ToMapUpdateAt(p, i, v);
      assert d[n].0 != k;
      UpdatesCommute(ToMap(p), k, v, d[n].0, d[n].1);
    }
  }

  // ---------------------------------------------------------------------
  // Assignment and update

  /** `d[k] = v`: a present key keeps its place and takes the new value; a
      new key goes at the end. */
  function Put<K(==), V>(d: Dict<K, V>, k: K, v: V): (r: Dict<K, V>)
    ensures |r| == if k in KeySet(d) then |d| else |d| + 1
    ensures forall i :: 0 <= i < |d| ==> r[i].0 == d[i].0
    ensures k !in KeySet(d) ==> r[|d|] == (k, v)
    ensures KeySet(r) == KeySet(d) + {k}
    ensures DistinctKeys(d) ==> DistinctKeys(r)
  {
    match Lookup.FindFirst(d, (e: (K, V)) => e.0 == k)
    case Some(i) =>
      assert k in KeySet(d) by { assert d[i].0 == k; }
      var r := d[i := (k, v)];
      assert KeySet(r) == KeySet(d) by {
        assert forall j :: 0 <= j < |d| ==> r[j].0 == d[j].0;
      }
      r
    case None =>
      assert k !in KeySet(d);
      var r := d + [(k, v)];
      assert KeySet(r) == KeySet(d) + {k} by {
        assert forall j :: 0 <= j < |d| ==> r[j] == d[j];
        assert r[|d|].0 == k;
      }
      r
  }

  /** `Put` sets the key in the mapping and leaves every other key alone. */
  lemma PutUpdatesMap<K, V>(d: Dict<K, V>, k: K, v: V)
    requires DistinctKeys(d)
    ensures ToMap(Put(d, k, v)) == ToMap(d)[k := v]
  {
    match Lookup.FindFirst(d, (e: (K, V)) => e.0 == k)
    case Some(i) =>
      ToMapUpdateAt(d, i, v);
    case None =>
      var r := d + [(k, v)];
      assert r[..|d|] == d;
  }

  /** `d.update(e)`: `Put` of every entry of `e`, in order. */
  function PutAll<K(==), V>(d: Dict<K, V>, e: Dict<K, V>): (r: Dict<K, V>)
    ensures |r| >= |d|
    ensures forall i :: 0 <= i < |d| ==> r[i].0 == d[i].0
    ensures KeySet(r) == KeySet(d) + KeySet(e)
    ensures DistinctKeys(d) ==> DistinctKeys(r)
    decreases |e|
  {
    if e == [] then d
    else
      assert KeySet(e) == {e[0].0} + KeySet(e[1..]) by {
        assert forall i :: 1 <= i < |e| ==> e[i] == e[1..][i - 1];
        assert forall i :: 0 <= i < |e| - 1 ==> e[1..][i] == e[i + 1];
      }
      PutAll(Put(d, e[0].0, e[0].1), e[1..])
  }

  /** `PutAll` overrides the mapping of `d` with the mapping of `e`. */
  lemma {:induction false} PutAllUpdatesMap<K, V>(d: Dict<K, V>, e: Dict<K, V>)
    requires DistinctKeys(d)
    ensures ToMap(PutAll(d, e)) == ToMap(d) + ToMap(e)
    decreases |e|
  {
    if e != [] {
      var k, v := e[0].0, e[0].1;
      PutUpdatesMap(d, k, v);
      PutAllUpdatesMap(Put(d, k, v), e[1..]);
      ToMapCons(e);
      UpdateThenUnion(ToMap(d), k, v, ToMap(e[1..]));
    }
  }

  /** The map of a non-empty dict: its first entry, overridden by the rest. */
  lemma ToMapCons<K, V>(e: Dict<K, V>)
    requires e != []
    ensures ToMap(e) == map[e[0].0 := e[0].1] + ToMap(e[1..])
  {
    assert e == [e[0]] + e[1..];
    ToMapAppend([e[0]], e[1..]);
    assert [e[0]][..0] == [];
  }

  /** Setting a key and then overriding with `m2` is overriding with `m2`
      on top of that one key. */
  lemma UpdateThenUnion<K, V>(m: map<K, V>, k: K, v: V, m2: map<K, V>)
    ensures m[k := v] + m2 == m + (map[k := v] + m2)
  {
  }

  /** When no key of `e` is in `d`, `PutAll` appends the entries of `e`. */
  lemma {:induction false} PutAllFresh<K, V>(d: Dict<K, V>, e: Dict<K, V>)
    requires DistinctKeys(d + e)
    ensures PutAll(d, e) == d + e
    decreases |e|
  {
    if e != [] {
      var k, v := e[0].0, e[0].1;
      var de := d + e;
      assert k !in KeySet(d) by {
        forall j | 0 <= j < |d| ensures d[j].0 != k {
          assert de[j] == d[j] && de[|d|] == e[0];
        }
      }
      assert Put(d, k, v) == d + [(k, v)];
      assert (d + [(k, v)]) + e[1..] == de;
      PutAllFresh(d + [(k, v)], e[1..]);
    }
  }

  // ---------------------------------------------------------------------
  // MergeDicts: dict1.copy() then update(dict2)

  function MergeDicts<K(==), V>(d1: Dict<K, V>, d2: Dict<K, V>): (r: Dict<K, V>)
    ensures KeySet(r) == KeySet(d1) + KeySet(d2)
    ensures |r| >= |d1| && forall i :: 0 <= i < |d1| ==> r[i].0 == d1[i].0
    ensures DistinctKeys(d1) ==> DistinctKeys(r)
  {
    PutAll(d1, d2)
  }

  /** Keys of `d2` take `d2`'s value; every other key keeps `d1`'s. */
  lemma MergeDictsValues<K, V>(d1: Dict<K, V>, d2: Dict<K, V>)
    requires DistinctKeys(d1)
    ensures ToMap(MergeDicts(d1, d2)) == ToMap(d1) + ToMap(d2)
    ensures forall k :: k in ToMap(d2) ==> ToMap(MergeDicts(d1, d2))[k] == ToMap(d2)[k]
    ensures forall k :: k in ToMap(d1) && k !in ToMap(d2) ==>
      ToMap(MergeDicts(d1, d2))[k] == ToMap(d1)[k]
  {
    PutAllUpdatesMap(d1, d2);
  }

  /** Merging dicts with no key in common concatenates their entries. */
  lemma MergeDisjointConcatenates<K, V>(d1: Dict<K, V>, d2: Dict<K, V>)
    requires DistinctKeys(d1 + d2)
    ensures MergeDicts(d1, d2) == d1 + d2
  {
    PutAllFresh(d1, d2);
  }

  // ---------------------------------------------------------------------
  // InvertDict: {value: key for key, value in dictionary.items()}

  /** Every entry with key and value exchanged. */
  function Swap<K, V>(d: Dict<K, V>): (r: Dict<V, K>)
    ensures |r| == |d|
    ensures forall i :: 0 <= i < |d| ==> r[i] == (d[i].1, d[i].0)
  {
    seq(|d|, i requires 0 <= i < |d| => (d[i].1, d[i].0))
  }

  /** The comprehension assigns `r[value] = key` entry by entry, so when
      values repeat the last key wins. */
  function InvertDict<K, V(==)>(d: Dict<K, V>): (r: Dict<V, K>)
    ensures DistinctKeys(r)
    ensures KeySet(r) == ValueSet(d)
  {
    assert KeySet(Swap(d)) == ValueSet(d) by {
      var s := Swap(d);
      assert forall i :: 0 <= i < |d| ==> s[i].0 == d[i].1;
    }
    PutAll([], Swap(d))
  }

  /** Each key of the inverted dict is a value of `d`, and `d` maps the key
      it is sent to back to it. */
  lemma InvertDictMapsBack<K, V>(d: Dict<K, V>)
    requires DistinctKeys(d)
    ensures forall w :: w in ToMap(InvertDict(d)) ==>
      ToMap(InvertDict(d))[w] in ToMap(d) && ToMap(d)[ToMap(InvertDict(d))[w]] == w
  {
    var s := Swap(d);
    PutAllUpdatesMap([], s);
    assert ToMap(InvertDict(d)) == ToMap(s);
    forall w | w in ToMap(s) ensures ToMap(s)[w] in ToMap(d) && ToMap(d)[ToMap(s)[w]] == w {
      var i := ToMapWitness(s, w);
      ToMapAt(d, i);
    }
  }

  /** No value occurs twice: `d` describes a one-to-one mapping. */
  predicate Injective<K, V(==)>(d: Dict<K, V>) {
    forall i, j :: 0 <= i < |d| && 0 <= j < |d| && i != j ==> d[i].1 != d[j].1
  }

  /** A one-to-one dict inverts entry by entry, and inverting it twice gives
      it back. */
  lemma InvertInjective<K, V>(d: Dict<K, V>)
    requires DistinctKeys(d) && Injective(d)
    ensures InvertDict(d) == Swap(d)
    ensures Injective(InvertDict(d))
    ensures InvertDict(InvertDict(d)) == d
  {
    var s := Swap(d);
    SwapExchangesRoles(d);
    InvertFresh(s);
    SwapExchangesRoles(s);
    SwapTwice(d);
    InvertFresh(Swap(s));
  }

  /** Swapping exchanges distinct keys and distinct values. */
  lemma SwapExchangesRoles<K, V>(d: Dict<K, V>)
    ensures DistinctKeys(Swap(d)) <==> Injective(d)
    ensures Injective(Swap(d)) <==> DistinctKeys(d)
  {
  }

  /** Swapping twice gives the entries back. */
  lemma SwapTwice<K, V>(d: Dict<K, V>)
    ensures Swap(Swap(d)) == d
  {
  }

  /** Inverting a one-to-one dict is swapping its entries in place. */
  lemma InvertFresh<K, V>(d: Dict<K, V>)
    requires Injective(d)
    ensures InvertDict(d) == Swap(d)
  {
    var s := Swap(d);
    SwapExchangesRoles(d);
    assert [] + s == s;
    PutAllFresh([], s);
  }

  // ---------------------------------------------------------------------
  // ExtractKeys and Dict2TupleList

  /** `[key for key, val in x.items()]`. */
  function ExtractKeys<K, V>(d: Dict<K, V>): (r: seq<K>)
    ensures |r| == |d|
    ensures forall i :: 0 <= i < |d| ==> r[i] == d[i].0
  {
    seq(|d|, i requires 0 <= i < |d| => d[i].0)
  }

  /** One key per key of the map: as many as it has, all of them, none
      twice. */
  lemma ExtractKeysOnePerKey<K, V>(d: Dict<K, V>)
    requires DistinctKeys(d)
    ensures |ExtractKeys(d)| == |ToMap(d)|
    ensures forall k :: k in ExtractKeys(d) <==> k in ToMap(d)
    ensures forall i, j :: 0 <= i < j < |d| ==> ExtractKeys(d)[i] != ExtractKeys(d)[j]
  {
    ToMapSize(d);
    var r := ExtractKeys(d);
    forall k ensures k in r <==> k in ToMap(d) {
      if k in r {
        var i :| 0 <= i < |r| && r[i] == k;
        assert d[i].0 == k;
      }
      if k in ToMap(d) {
        var i :| 0 <= i < |d| && d[i].0 == k;
        assert r[i] == k;
      }
    }
  }

  /** `list(dictionary.items())`: the entries themselves. */
  function Dict2TupleList<K, V>(d: Dict<K, V>): (r: seq<(K, V)>)
    ensures |r| == |d|
  {
    d
  }

  /** One pair per key of the map, each pair holding the key's value, and
      every key's pair present. */
  lemma Dict2TupleListOnePerKey<K, V>(d: Dict<K, V>)
    requires DistinctKeys(d)
    ensures |Dict2TupleList(d)| == |ToMap(d)|
    ensures forall p :: p in Dict2TupleList(d) ==> p.0 in ToMap(d) && ToMap(d)[p.0] == p.1
    ensures forall k :: k in ToMap(d) ==> (k, ToMap(d)[k]) in Dict2TupleList(d)
  {
    ToMapSize(d);
    forall p | p in d ensures p.0 in ToMap(d) && ToMap(d)[p.0] == p.1 {
      var i :| 0 <= i < |d| && d[i] == p;
      ToMapAt(d, i);
    }
    forall k | k in ToMap(d) ensures (k, ToMap(d)[k]) in d {
      var i := ToMapWitness(d, k);
    }
  }

  // ---------------------------------------------------------------------
  // SumDict over integer values

  /** The values a dict may hold, without floats. */
  datatype PyValue = PyInt(i: int) | PyBool(b: bool) | PyStr(s: string) | PyNone

  /** `isinstance(value, (int, float))`: `bool` is a subclass of `int`. */
  predicate IsNumber(v: PyValue) {
    v.PyInt? || v.PyBool?
  }

  /** What a value adds to the sum: its number, or nothing when it is
      filtered out. */
  function Contribution(v: PyValue): int {
    match v
    case PyInt(i) => i
    case PyBool(b) => if b then 1 else 0
    case _ => 0
  }

  /** `sum(value for value in dictionary.values() if isinstance(...))`. */
  function SumDict<K>(d: Dict<K, PyValue>): (r: int)
    ensures (forall i :: 0 <= i < |d| ==> !IsNumber(d[i].1)) ==> r == 0
    ensures (forall i :: 0 <= i < |d| ==> Contribution(d[i].1) >= 0) ==> r >= 0
  {
    if d == [] then 0 else Contribution(d[0].1) + SumDict(d[1..])
  }

  /** The sum of a concatenation is the sum of the parts. */
  lemma {:induction false} SumDictAppend<K>(a: Dict<K, PyValue>, b: Dict<K, PyValue>)
    ensures SumDict(a + b) == SumDict(a) + SumDict(b)
    decreases |a|
  {
    if a != [] {
      var ab := a + b;
      assert ab[0] == a[0];
      assert ab[1..] == a[1..] + b;
      SumDictAppend(a[1..], b);
      assert SumDict(ab) == Contribution(ab[0].1) + SumDict(ab[1..]);
    } else {
      assert a + b == b;
    }
  }

  /** Replacing one value changes the sum by the difference of the two. */
  lemma {:induction false} SumDictUpdateAt<K>(d: Dict<K, PyValue>, i: nat, e: (K, PyValue))
    requires i < |d|
    ensures SumDict(d[i := e]) == SumDict(d) - Contribution(d[i].1) + Contribution(e.1)
    decreases |d|
  {
    if i > 0 {
      assert d[i := e][1..] == d[1..][i - 1 := e];
      SumDictUpdateAt(d[1..], i - 1, e);
    }
  }

  /** The sum follows the mapping: `d[k] = v` replaces the contribution of
      `k`'s old value, if any, by that of `v`. */
  lemma SumDictPut<K>(d: Dict<K, PyValue>, k: K, v: PyValue)
    requires DistinctKeys(d)
    ensures SumDict(Put(d, k, v)) ==
      SumDict(d) - (if k in ToMap(d) then Contribution(ToMap(d)[k]) else 0) + Contribution(v)
  {
    match Lookup.FindFirst(d, (e: (K, PyValue)) => e.0 == k)
    case Some(i) =>
      SumDictUpdateAt(d, i, (k, v));
      ToMapAt(d, i);
    case None =>
      ToMapKeys(d);
      assert k !in KeySet(d);
      SumDictAppend(d, [(k, v)]);
      assert SumDict([(k, v)]) == Contribution(v) + SumDict([(k, v)][1..]);
  }

  /** Merging dicts with no key in common adds their sums. */
  lemma SumDictOfDisjointMerge<K>(d1: Dict<K, PyValue>, d2: Dict<K, PyValue>)
    requires DistinctKeys(d1 + d2)
    ensures SumDict(MergeDicts(d1, d2)) == SumDict(d1) + SumDict(d2)
  {
    MergeDisjointConcatenates(d1, d2);
    SumDictAppend(d1, d2);
  }
}

=== FILE: grading.dfy ===
/** Server-side grading and award bookkeeping of app.py.

    `run_user_code` executes learner code, looks up its `foo` function and
    counts the test cases whose output matches the expected output. `submit`
    grades a submission for one challenge. On the first successful
    completion of that challenge it adds the client-supplied available score
    to the learner's total and records the challenge as completed.

    Python's `exec` is not modelled. Learner code is given as its effect: it
    either raises while executing, or leaves a scope that may or may not
    define `foo`. `foo` is a total function from an argument list to an
    optional value, where `None` means the call raised. */
module Grading {
  import opened Wrappers
  import Lookup
  import Sums

  /** One entry of a challenge's `test_cases`. */
  datatype TestCase<V> = TestCase(input: seq<V>, expected: V)

  /** A challenge as the server knows it. */
  datatype ServerChallenge<V> = ServerChallenge(id: int, tests: seq<TestCase<V>>)

  /** `foo(*args)`: `None` when the call raises. */
  type Entry<!V> = seq<V> -> Option<V>

  /** The effect of `exec(code, {}, local_scope)`. */
  datatype UserCode<!V> =
    | ExecRaises                       // executing the code raised
    | Executed(foo: Option<Entry<V>>)  // `local_scope.get("foo")`, absent or falsy as None

  /** The exception `run_user_code` caught. */
  datatype Failure = CodeRaised | EntryRaised | DivisionByZero

  /** The message part of `run_user_code`'s result. */
  datatype RunMessage =
    | FooNotDefined                            // "Function 'foo' is not defined."
    | PercentPassed(passed: nat, total: nat)   // "{percentage}% of tests passed."
    | ErrorMessage(failure: Failure)           // "Error: {e}"

  /** `(success, message, passed_tests)`. */
  datatype RunResult = RunResult(success: bool, message: RunMessage, passed: nat)

  /** The persisted learner record, `{"score": ..., "completed_challenges": [...]}`. */
  datatype UserData = UserData(score: int, completed: seq<int>)

  /** The message of a successful `submit` reply. */
  datatype SuccessMessage =
    | Earned(points: int)      // "Challenge completed! You earned {challenge_score} points."
    | Regraded(run: RunMessage) // the grading message, for an already completed challenge

  /** The JSON reply of `submit`. */
  datatype SubmitReply =
    | NotFound
    | Failed(message: RunMessage)
    | Succeeded(note: SuccessMessage, score: int, challengeScore: int)

  // ---------------------------------------------------------------------
  // Reference definitions

  /** `foo` returns the expected output for a test case. */
  predicate Passes<V(==)>(foo: Entry<V>, t: TestCase<V>) {
    foo(t.input) == Some(t.expected)
  }

  /** `foo` raises on some test case. */
  predicate RaisesOn<V>(foo: Entry<V>, tests: seq<TestCase<V>>) {
    exists i :: 0 <= i < |tests| && foo(tests[i].input).None?
  }

  /** The number of test cases `foo` passes. */
  function PassCount<V(==)>(foo: Entry<V>, tests: seq<TestCase<V>>): (n: nat)
    ensures n <= |tests|
    ensures n == |tests| <==> forall i :: 0 <= i < |tests| ==> Passes(foo, tests[i])
  {
    if tests == [] then 0
    else
      var last := tests[|tests| - 1];
      assert forall i :: 0 <= i < |tests| - 1 ==> tests[..|tests| - 1][i] == tests[i];
      PassCount(foo, tests[..|tests| - 1]) + (if Passes(foo, last) then 1 else 0)
  }

  /** The code defines `foo`, nothing raises, there is at least one test case,
      and every test case passes. */
  predicate Succeeds<V(==)>(code: UserCode<V>, tests: seq<TestCase<V>>) {
    && code.Executed? && code.foo.Some?
    && !RaisesOn(code.foo.value, tests)
    && |tests| > 0
    && forall i :: 0 <= i < |tests| ==> Passes(code.foo.value, tests[i])
  }

  /** What running `code` against `tests` comes to, case by case: the code
      itself raises, it leaves `foo` undefined, `foo` raises on some test
      case, there are no test cases to divide by, or the share of test cases
      passed is reported and success means all of them. */
  function RunOf<V(==)>(code: UserCode<V>, tests: seq<TestCase<V>>): (r: RunResult)
    ensures r.success <==> Succeeds(code, tests)
    ensures r.passed <= |tests|
    ensures r.message.PercentPassed? ==> r.message == PercentPassed(r.passed, |tests|) && |tests| > 0
    ensures !r.message.PercentPassed? ==> !r.success && r.passed == 0
  {
    if code.ExecRaises? then RunResult(false, ErrorMessage(CodeRaised), 0)
    else if code.foo.None? then RunResult(false, FooNotDefined, 0)
    else if RaisesOn(code.foo.value, tests) then RunResult(false, ErrorMessage(EntryRaised), 0)
    else if tests == [] then RunResult(false, ErrorMessage(DivisionByZero), 0)
    else
      var n := PassCount(code.foo.value, tests);
      RunResult(n == |tests|, PercentPassed(n, |tests|), n)
  }

  // ---------------------------------------------------------------------
  // Operations

  /** `run_user_code`. The loop stops at the first test case on which `foo`
      raises. An empty test list divides by zero after the loop. */
  method RunUserCode<V(==)>(code: UserCode<V>, tests: seq<TestCase<V>>) returns (r: RunResult)
    ensures code.ExecRaises? ==> r == RunResult(false, ErrorMessage(CodeRaised), 0)
    ensures code.Executed? && code.foo.None? ==> r == RunResult(false, FooNotDefined, 0)
    ensures code.Executed? && code.foo.Some? && RaisesOn(code.foo.value, tests) ==>
      r == RunResult(false, ErrorMessage(EntryRaised), 0)
    ensures code.Executed? && code.foo.Some? && !RaisesOn(code.foo.value, tests) && tests == [] ==>
      r == RunResult(false, ErrorMessage(DivisionByZero), 0)
    ensures code.Executed? && code.foo.Some? && !RaisesOn(code.foo.value, tests) && tests != [] ==>
      && r.passed == PassCount(code.foo.value, tests)
      && r.message == PercentPassed(r.passed, |tests|)
    ensures r.passed <= |tests|
    ensures r.success <==> Succeeds(code, tests)
    ensures !r.success && !r.message.PercentPassed? ==> r.passed == 0
    ensures r == RunOf(code, tests)
  {
    if code.ExecRaises? {
      return RunResult(false, ErrorMessage(CodeRaised), 0);
    }
    if code.foo.None? {
      return RunResult(false, FooNotDefined, 0);
    }
    var foo := code.foo.value;
    var passed: nat := 0;
    var i := 0;
    while i < |tests|
      invariant 0 <= i <= |tests|
      invariant passed == PassCount(foo, tests[..i])
      invariant forall j :: 0 <= j < i ==> foo(tests[j].input).Some?
    {
      var out := foo(tests[i].input);
      if out.None? {
        return RunResult(false, ErrorMessage(EntryRaised), 0);
      }
      if out.value == tests[i].expected {
        passed := passed + 1;
      }
      assert tests[..i + 1][..i] == tests[..i];
      i := i + 1;
    }
    assert tests[..i] == tests;
    if |tests| == 0 {
      return RunResult(false, ErrorMessage(DivisionByZero), 0);
    }
    var success := passed == |tests|;
    return RunResult(success, PercentPassed(passed, |tests|), passed);
  }

  /** Lines 66-71 of `submit`: the first successful completion of a challenge
      awards the available score and records the id; a repeat awards 0 and
      changes nothing. The result is the new record and the award. */
  function RecordSuccess(data: UserData, id: int, availableScore: int): (r: (UserData, int))
    ensures r.0.score == data.score + r.1
    ensures id !in data.completed ==> r.1 == availableScore && r.0.completed == data.completed + [id]
    ensures id in data.completed ==> r.1 == 0 && r.0 == data
    ensures id in r.0.completed
    ensures NoDuplicates(data.completed) ==> NoDuplicates(r.0.completed)
  {
    if id !in data.completed then
      (UserData(data.score + availableScore, data.completed + [id]), availableScore)
    else
      (data, 0)
  }

  /** No challenge id appears twice. */
  predicate NoDuplicates(ids: seq<int>) {
    forall i, j :: 0 <= i < j < |ids| ==> ids[i] != ids[j]
  }

  /** `submit`: look the challenge up, grade the code, and on success do the
      award bookkeeping. `availableScore` is the client-supplied value. */
  method Submit<V(==)>(challenges: seq<ServerChallenge<V>>, data: UserData, code: UserCode<V>,
                       challengeId: int, availableScore: int)
    returns (data': UserData, reply: SubmitReply)
    ensures (forall c :: c in challenges ==> c.id != challengeId) ==> data' == data && reply == NotFound
    ensures reply.NotFound? <==> forall c :: c in challenges ==> c.id != challengeId
    ensures reply.NotFound? ==> data' == data
    ensures reply.Failed? ==> data' == data
    ensures reply.Succeeded? <==> exists c :: c in challenges && c.id == challengeId && Succeeds(code, FirstWithId(challenges, challengeId).tests)
    ensures reply.Succeeded? ==>
      && data'.score == data.score + reply.challengeScore
      && reply.score == data'.score
      && (challengeId !in data.completed ==>
            && reply.challengeScore == availableScore
            && data'.completed == data.completed + [challengeId]
            && reply.note == Earned(availableScore))
      && (challengeId in data.completed ==> reply.challengeScore == 0 && data' == data)
    ensures NoDuplicates(data.completed) ==> NoDuplicates(data'.completed)
    // a known id is graded by running the code against its first challenge's tests
    ensures (exists c :: c in challenges && c.id == challengeId) ==>
      var run := RunOf(code, FirstWithId(challenges, challengeId).tests);
      && (reply.Failed? <==> !run.success)
      && (reply.Failed? ==> reply.message == run.message)
      && (reply.Succeeded? && challengeId in data.completed ==> reply.note == Regraded(run.message))
  {
    var found := Lookup.FindFirst(challenges, (c: ServerChallenge<V>) => c.id == challengeId);
    if found.None? {
      return data, NotFound;
    }
    var challenge := challenges[found.value];
    var result := RunUserCode(code, challenge.tests);
    if result.success {
      var (d, award) := RecordSuccess(data, challengeId, availableScore);
      var message := if challengeId !in data.completed then Earned(award) else Regraded(result.message);
      return d, Succeeded(message, d.score, award);
    }
    return data, Failed(result.message);
  }

  /** The first challenge carrying `id`, as `next(...)` finds it. */
  function FirstWithId<V>(challenges: seq<ServerChallenge<V>>, id: int): (c: ServerChallenge<V>)
    requires exists c :: c in challenges && c.id == id
    ensures c in challenges && c.id == id
    ensures exists j :: 0 <= j < |challenges| && challenges[j] == c
              && forall k :: 0 <= k < j ==> challenges[k].id != id
  {
    var found := Lookup.FindFirst(challenges, (c: ServerChallenge<V>) => c.id == id);
    challenges[found.value]
  }

  // ---------------------------------------------------------------------
  // The ledger over a series of successful submissions

  /** The record after successful submissions of `(id, available score)`
      pairs, with the awards made. */
  function Record(data: UserData, wins: seq<(int, int)>): (r: (UserData, seq<int>))
    ensures |r.1| == |wins|
    decreases |wins|
  {
    if wins == [] then (data, [])
    else
      var (d1, a) := RecordSuccess(data, wins[0].0, wins[0].1);
      var (d2, awards) := Record(d1, wins[1..]);
      (d2, [a] + awards)
  }

  /** Over any series of successes, the total grows by exactly the sum of
      the awards, the completed list only grows, stays free of duplicates,
      and ends up holding exactly the old ids and the ids that succeeded. */
  lemma {:induction false} LedgerInvariant(data: UserData, wins: seq<(int, int)>)
    requires NoDuplicates(data.completed)
    ensures var (d, awards) := Record(data, wins);
      && d.score == data.score + Sums.Sum(awards)
      && data.completed <= d.completed
      && NoDuplicates(d.completed)
      && (forall x :: x in d.completed <==> x in data.completed || exists k :: 0 <= k < |wins| && wins[k].0 == x)
    decreases |wins|
  {
    if wins != [] {
      var (d1, a) := RecordSuccess(data, wins[0].0, wins[0].1);
      LedgerInvariant(d1, wins[1..]);
      var (d, awards) := Record(d1, wins[1..]);
      assert Record(data, wins) == (d, [a] + awards);
      forall x ensures x in d.completed <==> x in data.completed || exists k :: 0 <= k < |wins| && wins[k].0 == x {
        if exists k :: 0 <= k < |wins| - 1 && wins[1..][k].0 == x {
          var k :| 0 <= k < |wins| - 1 && wins[1..][k].0 == x;
          assert wins[k + 1].0 == x;
        }
        if exists k :: 0 <= k < |wins| && wins[k].0 == x {
          var k :| 0 <= k < |wins| && wins[k].0 == x;
          if k > 0 { assert wins[1..][k - 1].0 == x; }
        }
      }
    }
  }

  /** A challenge that already succeeded never earns again: every later award
      for the same id is 0. */
  lemma {:induction false} RepeatAwardsNothing(data: UserData, wins: seq<(int, int)>, k: nat)
    requires k < |wins| && wins[k].0 in data.completed
    ensures Record(data, wins).1[k] == 0
    decreases |wins|
  {
    var (d1, a) := RecordSuccess(data, wins[0].0, wins[0].1);
    var (d, awards) := Record(d1, wins[1..]);
    assert Record(data, wins) == (d, [a] + awards);
    if k > 0 {
      RepeatAwardsNothing(d1, wins[1..], k - 1);
    }
  }

  /** Two successes for the same id: only the first one can award points. */
  lemma SecondSuccessAwardsNothing(data: UserData, id: int, first: int, second: int)
    ensures Record(data, [(id, first), (id, second)]).1[1] == 0
  {
    RepeatAwardsNothing(RecordSuccess(data, id, first).0, [(id, second)], 0);
    var (d1, a) := RecordSuccess(data, id, first);
    assert Record(data, [(id, first), (id, second)]).1 == [a] + Record(d1, [(id, second)]).1;
  }
}

=== FILE: lookup.dfy ===
/** Search for the first element of a list that satisfies a test.

    Both sides of the platform look challenges up this way: the browser with
    `challengeData.find(c => c.id === challengeId)` and the server with
    `next((c for c in challenges if c['id'] == challenge_id), None)`. */
module Lookup {
  import opened Wrappers

  /** Index of the first element of `xs` satisfying `p`, or `None` if no
      element does. */
  function FindFirst<T>(xs: seq<T>, p: T -> bool): (r: Option<nat>)
    ensures r.Some? ==> r.value < |xs| && p(xs[r.value])
    ensures r.Some? ==> forall j :: 0 <= j < r.value ==> !p(xs[j])
    ensures r.None? <==> forall j :: 0 <= j < |xs| ==> !p(xs[j])
  {
    if xs == [] then None
    else if p(xs[0]) then Some(0)
    else
      match FindFirst(xs[1..], p)
      case None => None
      case Some(i) => Some(i + 1)
  }
}

=== FILE: numerals.dfy ===
/** Digit strings of natural numbers in a base from 2 to 10: Python's
    `str(n)` for base 10 and the digits of `bin(n)` for base 2, with the
    positional value that reads them back. */
module Numerals {

  /** `c` is a digit of `base`. */
  predicate IsDigit(c: char, base: nat) {
    '0' <= c && (c as int) < ('0' as int) + base
  }

  /** Every character of `s` is a digit of `base`. */
  predicate AllDigits(s: string, base: nat) {
    forall i :: 0 <= i < |s| ==> IsDigit(s[i], base)
  }

  /** A non-empty digit string without a leading zero, except "0" itself. */
  predicate Canonical(s: string, base: nat) {
    |s| >= 1 && AllDigits(s, base) && (s[0] == '0' ==> |s| == 1)
  }

  function DigitChar(d: nat, base: nat): (c: char)
    requires d < base <= 10
    ensures IsDigit(c, base)
  {
    (('0' as int) + d) as char
  }

  function DigitValue(c: char): nat
    requires '0' <= c
  {
    (c as int) - ('0' as int)
  }

  /** The digits of `n` in `base`, most significant first. */
  function ToDigits(n: nat, base: nat): (s: string)
    requires 2 <= base <= 10
    ensures Canonical(s, base)
    ensures s[0] == '0' <==> n == 0
    decreases n
  {
    if n < base then [DigitChar(n, base)]
    else ToDigits(n / base, base) + [DigitChar(n % base, base)]
  }

  /** The positional value of a digit string. */
  function ValueOf(s: string, base: nat): (n: nat)
    requires 2 <= base <= 10
    requires AllDigits(s, base)
  {
    if s == [] then 0
    else ValueOf(s[..|s| - 1], base) * base + DigitValue(s[|s| - 1])
  }

  /** The value of a digit string with one more digit at the end. */
  lemma ValueOfSnoc(p: string, c: char, base: nat)
    requires 2 <= base <= 10
    requires AllDigits(p, base) && IsDigit(c, base)
    ensures AllDigits(p + [c], base)
    ensures ValueOf(p + [c], base) == ValueOf(p, base) * base + DigitValue(c)
  {
    assert (p + [c])[..|p|] == p;
  }

  /** Reading the digits of `n` back gives `n`. */
  lemma {:induction false} ValueOfToDigits(n: nat, base: nat)
    requires 2 <= base <= 10
    ensures ValueOf(ToDigits(n, base), base) == n
    decreases n
  {
    if n < base {
      assert ToDigits(n, base) == [] + [DigitChar(n, base)];
      ValueOfSnoc([], DigitChar(n, base), base);
    } else {
      var q, d := n / base, n % base;
      var p, c := ToDigits(q, base), DigitChar(d, base);
      assert ToDigits(n, base) == p + [c];
      DivModIdentity(n, base);
      assert q < n;
      ValueOfToDigits(q, base);
      ValueOfSnoc(p, c, base);
      DivModIdentity(n, base);
      assert ValueOf(p + [c], base) == q * base + d;
    }
  }

  /** A canonical digit string that does not start with '0' has a positive value. */
  lemma {:induction false} LeadingDigitPositive(s: string, base: nat)
    requires 2 <= base <= 10
    requires Canonical(s, base) && s[0] != '0'
    ensures ValueOf(s, base) >= 1
    decreases |s|
  {
    var n := |s| - 1;
    var p := s[..n];
    assert ValueOf(s, base) == ValueOf(p, base) * base + DigitValue(s[n]);
    if n == 0 {
      assert DigitValue(s[0]) >= 1;
    } else {
      assert Canonical(p, base) && p[0] != '0' by {
        assert forall i :: 0 <= i < |p| ==> p[i] == s[i];
      }
      LeadingDigitPositive(p, base);
      MulMonotone(1, ValueOf(p, base), base);
    }
  }

  /** Writing out the value of a canonical digit string gives the string
      back: canonical digit strings and naturals correspond one to one. */
  lemma {:induction false} ToDigitsOfValue(s: string, base: nat)
    requires 2 <= base <= 10
    requires Canonical(s, base)
    ensures ToDigits(ValueOf(s, base), base) == s
    decreases |s|
  {
    var k := |s| - 1;
    var p := s[..k];
    var c := s[k];
    var d := DigitValue(c);
    var n := ValueOf(s, base);
    assert s == p + [c];
    assert AllDigits(p, base) by {
      assert forall i :: 0 <= i < |p| ==> p[i] == s[i];
    }
    var v := ValueOf(p, base);
    assert n == v * base + d;
    assert DigitChar(d, base) == c;
    if k == 0 {
      assert v == 0;
    } else {
      assert p[0] == s[0];
      LeadingDigitPositive(p, base);
      ToDigitsOfValue(p, base);
      DivModOfLastDigit(v, base, d);
      assert ToDigits(n, base) == ToDigits(v, base) + [DigitChar(d, base)];
    }
  }

  /** Dividing `v * base + d` by `base` undoes the multiplication. */
  lemma DivModOfLastDigit(v: nat, base: nat, d: nat)
    requires 2 <= base && d < base
    ensures (v * base + d) / base == v && (v * base + d) % base == d
    ensures v >= 1 ==> v * base + d >= base
  {
    var x := v * base + d;
    var q, r := x / base, x % base;
    assert x == q * base + r && 0 <= r < base;
    if q > v {
      MulMonotone(v + 1, q, base);
      assert false;
    } else if q < v {
      MulMonotone(q + 1, v, base);
      assert false;
    }
    if v >= 1 {
      MulMonotone(1, v, base);
    }
  }

  lemma DivModIdentity(n: nat, base: nat)
    requires 2 <= base
    ensures (n / base) * base + n % base == n
    ensures n >= 1 ==> n / base < n
  {
  }

  lemma MulMonotone(a: int, b: int, c: nat)
    requires a <= b
    ensures a * c <= b * c
  {
  }
}

=== FILE: session.dfy ===
/** The browser-side session controller of static/js/app.js.

    The page keeps two variables, `currentChallenge` and `availableScore`, plus
    page elements that matter for behaviour: the hint buttons (each remembers
    the challenge it was built for and whether it is disabled), the revealed
    hint texts, and the editor/submit/answer affordances. Here they are one
    immutable `Session` record. Every user or network event is a pure function
    from the old record to the new one. Network requests are returned as
    values. Network replies are passed in as inputs.

    The model follows the code as written. A hint reply is charged against
    whatever score is current when it arrives, even after another challenge
    was selected. A clicked hint button stays disabled even if its fetch fails.
    An unknown id clears `currentChallenge` and leaves everything else alone. */
module Session {
  import opened Wrappers
  import Lookup
  import Text
  import Sums

  /** A challenge record as the page receives it in `challengeData`.
      `kind` is the optional `type` field. `hintCount` is `hint_count`. */
  datatype Challenge = Challenge(
    id: int,
    name: string,
    instructions: string,
    kind: Option<string>,
    media: string,
    score: nat,
    hintCount: int)

  /** One "Reveal Hint" button. `owner` is the id of the challenge the button
      was built for, captured by its click handler. */
  datatype HintButton = HintButton(owner: int, index: nat, disabled: bool)

  /** The media element put in the challenge-media container. */
  datatype MediaView = MediaView(kind: string, src: string)

  /** The affordances the page shows. */
  datatype View = View(
    editorShown: bool,       // editor, output area and submit button displayed
    editorWritable: bool,    // editor.setReadOnly(false) has been called
    submitEnabled: bool,     // submit button has no `disabled` attribute
    answerField: bool,       // free-text input and "Submit Answer" button present
    hintsHeaderShown: bool,
    media: Option<MediaView>)

  datatype Session = Session(
    current: Option<Challenge>,
    availableScore: nat,
    hints: seq<HintButton>,
    hintTexts: seq<string>,
    view: View,
    globalChallengeId: Option<int>)  // window.challenge_id, read by the in-page interpreter

  /** A `/get_hint` request: challenge id and hint index. */
  datatype HintRequest = HintRequest(challengeId: int, hintIndex: nat)

  /** What a `/get_hint` fetch resolves to. `Answered` is a parsed JSON body
      (`hint_text` may be absent). `FetchFailed` is a rejected promise. */
  datatype HintReply = Answered(hintText: Option<string>, penalty: int) | FetchFailed

  /** A `/submit_results` request. */
  datatype AnswerRequest = AnswerRequest(challengeId: int, userAnswer: string)

  /** The result of clicking "Submit Answer". */
  datatype AnswerOutcome =
    | NoAnswerField     // no such button on the page
    | EmptyAnswer       // alert("Please enter a response."), nothing sent
    | Crashed           // `currentChallenge.id` on null throws, nothing sent
    | Sent(request: AnswerRequest)

  /** What a `/submit_results` fetch resolves to. */
  datatype AnswerReply = Graded(success: bool, challengeScore: int) | AnswerFetchFailed

  /** The notice shown for an answer reply. */
  datatype Notice = Correct(points: int) | Incorrect | Logged

  /** The page before any challenge is clicked. The page template fixes the
      initial visibility. It is not part of this model, so everything starts
      hidden and disabled. The editor starts read-only (app.js line 13). */
  const Init: Session := Session(
    None, 0, [], [],
    View(false, false, false, false, false, None),
    None)

  /** `currentChallenge.type || "code"`: a missing or empty type means code.
      The result is never empty, and a non-empty type is kept as it is. */
  function EffectiveType(c: Challenge): (r: string)
    ensures r != ""
    ensures r == "code" <==> c.kind.None? || c.kind.value == "" || c.kind.value == "code"
    ensures c.kind.Some? && c.kind.value != "" ==> r == c.kind.value
  {
    if c.kind.None? || c.kind.value == "" then "code" else c.kind.value
  }

  predicate IsMediaType(t: string) {
    t == "image" || t == "audio" || t == "video"
  }

  /** `challengeData.find(c => c.id === challengeId)`. */
  function FindChallenge(catalog: seq<Challenge>, id: int): (r: Option<Challenge>)
    ensures r.Some? ==> r.value in catalog && r.value.id == id
    ensures r.Some? ==> exists j :: 0 <= j < |catalog| && catalog[j] == r.value
                           && forall k :: 0 <= k < j ==> catalog[k].id != id
    ensures r.None? <==> forall c :: c in catalog ==> c.id != id
  {
    match Lookup.FindFirst(catalog, (c: Challenge) => c.id == id)
    case None => None
    case Some(i) => Some(catalog[i])
  }

  /** Hint buttons for a non-negative count, indices 0 .. count-1, all enabled. */
  function Buttons(owner: int, count: nat): (bs: seq<HintButton>)
    ensures |bs| == count
    ensures forall i :: 0 <= i < count ==> bs[i] == HintButton(owner, i, false)
  {
    if count == 0 then [] else Buttons(owner, count - 1) + [HintButton(owner, count - 1, false)]
  }

  /** `resetHints(); setupHints(challenge)`: the container is emptied, then
      one button per index below `hint_count` is built. None is built when
      `hint_count <= 0`. */
  function SetupHints(c: Challenge): (bs: seq<HintButton>)
    ensures c.hintCount <= 0 ==> bs == []
    ensures c.hintCount > 0 ==> |bs| == c.hintCount
    ensures forall i :: 0 <= i < |bs| ==> bs[i] == HintButton(c.id, i, false)
  {
    if c.hintCount > 0 then Buttons(c.id, c.hintCount) else []
  }

  /** The affordances after selecting a found challenge of type `t`. */
  function ViewFor(c: Challenge, old_: View): View {
    var t := EffectiveType(c);
    if t == "code" then
      View(true, true, true, false, c.hintCount > 0, None)
    else
      View(false, old_.editorWritable, old_.submitEnabled, IsMediaType(t), c.hintCount > 0,
           if IsMediaType(t) then Some(MediaView(t, c.media)) else None)
  }

  /** The click handler of a challenge button. */
  function Select(catalog: seq<Challenge>, s: Session, id: int): (r: Session)
    // a known id becomes current and resets the score and the hint panel
    ensures (exists c :: c in catalog && c.id == id) ==>
      && r.current.Some? && r.current.value in catalog && r.current.value.id == id
      && r.availableScore == r.current.value.score
      && r.hintTexts == []
      && r.globalChallengeId == Some(id)
      && |r.hints| == (if r.current.value.hintCount > 0 then r.current.value.hintCount else 0)
      && (forall i :: 0 <= i < |r.hints| ==> r.hints[i] == HintButton(id, i, false))
    // the record chosen is the first one carrying the id
    ensures r.current == FindChallenge(catalog, id)
    // an unknown id clears only `currentChallenge`
    ensures (forall c :: c in catalog ==> c.id != id) ==>
      r == s.(current := None)
    // code challenges get a writable editor and an enabled submit button
    ensures r.current.Some? && EffectiveType(r.current.value) == "code" ==>
      r.view.editorShown && r.view.editorWritable && r.view.submitEnabled && !r.view.answerField
    // other types hide the editor; only image, audio and video get an answer field
    ensures r.current.Some? && EffectiveType(r.current.value) != "code" ==>
      && !r.view.editorShown
      && r.view.editorWritable == s.view.editorWritable
      && r.view.submitEnabled == s.view.submitEnabled
      && (r.view.answerField <==> IsMediaType(EffectiveType(r.current.value)))
    // the hints header is shown exactly when the challenge has hints
    ensures r.current.Some? ==> r.view.hintsHeaderShown == (r.current.value.hintCount > 0)
    // image, audio and video show the challenge's `media` in an element of that type
    ensures r.current.Some? ==> (r.view.media.Some? <==> IsMediaType(EffectiveType(r.current.value)))
    ensures r.current.Some? && r.view.media.Some? ==>
      r.view.media.value == MediaView(EffectiveType(r.current.value), r.current.value.media)
  {
    match FindChallenge(catalog, id)
    case None => s.(current := None)
    case Some(c) =>
      Session(Some(c), c.score, SetupHints(c), [], ViewFor(c, s.view), Some(id))
  }

  /** Indices of the hint buttons that are disabled. */
  function DisabledHints(s: Session): set<nat> {
    set i | 0 <= i < |s.hints| && s.hints[i].disabled
  }

  /** A click on hint button `i`. An enabled button sends a request for the
      challenge it was built for and disables itself. A disabled or missing
      button does nothing. */
  function ClickHint(s: Session, i: nat): (r: (Session, Option<HintRequest>))
    ensures i < |s.hints| && !s.hints[i].disabled ==>
      && r.1 == Some(HintRequest(s.hints[i].owner, s.hints[i].index))
      && DisabledHints(r.0) == DisabledHints(s) + {i}
      && r.0 == s.(hints := r.0.hints)
    ensures !(i < |s.hints| && !s.hints[i].disabled) ==> r.1 == None && r.0 == s
    // only the clicked button can change, and only its flag
    ensures |r.0.hints| == |s.hints|
    ensures forall j :: 0 <= j < |s.hints| && j != i ==> r.0.hints[j] == s.hints[j]
    ensures i < |s.hints| ==> r.0.hints[i] == s.hints[i].(disabled := true)
    // disabling is permanent and clicks never touch the score
    ensures DisabledHints(s) <= DisabledHints(r.0)
    ensures r.0.availableScore == s.availableScore
  {
    if i < |s.hints| && !s.hints[i].disabled then
      var b := s.hints[i];
      (s.(hints := s.hints[i := b.(disabled := true)]), Some(HintRequest(b.owner, b.index)))
    else
      (s, None)
  }

  /** The `/get_hint` reply handler. A reply carrying a non-empty `hint_text`
      shows the text and charges the penalty, flooring the score at zero. Any
      other reply, or a failed fetch, changes nothing. No reply re-enables a
      hint button, and none checks that the selection is still the same. */
  function ApplyHintReply(s: Session, reply: HintReply): (r: Session)
    ensures r.hints == s.hints && r.current == s.current && r.view == s.view
    ensures !HintApplies(reply) ==> r == s
    ensures HintApplies(reply) ==> r == s.(availableScore := r.availableScore, hintTexts := r.hintTexts)
    ensures HintApplies(reply) ==>
      && r.hintTexts == s.hintTexts + [reply.hintText.value]
      && (r.availableScore == 0 || r.availableScore == s.availableScore - reply.penalty)
      && r.availableScore >= s.availableScore - reply.penalty
      && (reply.penalty >= 0 ==> r.availableScore <= s.availableScore)
      && (reply.penalty < s.availableScore ==> r.availableScore == s.availableScore - reply.penalty)
  {
    if HintApplies(reply) then
      var left := s.availableScore - reply.penalty;
      s.(availableScore := if left > 0 then left else 0,
         hintTexts := s.hintTexts + [reply.hintText.value])
    else
      s
  }

  /** `if (data.hint_text)`: the text is present and not empty. */
  predicate HintApplies(reply: HintReply) {
    reply.Answered? && reply.hintText.Some? && reply.hintText.value != ""
  }

  /** ECMAScript WhiteSpace and LineTerminator code points, the set
      `String.prototype.trim` removes: `s.trim()` is
      `Text.Strip(s, JsSpaces)`. */
  const JsSpaces: set<char> := {
    '\U{9}', '\U{A}', '\U{B}', '\U{C}', '\U{D}', ' ', '\U{A0}', '\U{1680}',
    '\U{2000}', '\U{2001}', '\U{2002}', '\U{2003}', '\U{2004}', '\U{2005}', '\U{2006}',
    '\U{2007}', '\U{2008}', '\U{2009}', '\U{200A}', '\U{2028}', '\U{2029}', '\U{202F}',
    '\U{205F}', '\U{3000}', '\U{FEFF}'}

  /** `handleUserResponse`: the "Submit Answer" click. The input is trimmed.
      An empty answer only raises an alert. A non-empty answer is sent with
      the current challenge's id; with no current challenge the handler
      throws before anything is sent. */
  function SubmitAnswer(s: Session, input: string): (r: AnswerOutcome)
    ensures !s.view.answerField ==> r == NoAnswerField
    ensures r.Sent? <==> s.view.answerField && s.current.Some? && Text.Strip(input, JsSpaces) != []
    ensures r.Sent? ==> r.request == AnswerRequest(s.current.value.id, Text.Strip(input, JsSpaces))
    ensures s.view.answerField && Text.AllIn(input, JsSpaces) ==> r == EmptyAnswer
    ensures r == Crashed <==> s.view.answerField && s.current.None? && Text.Strip(input, JsSpaces) != []
  {
    Text.StripEmptyIffAllIn(input, JsSpaces);
    if !s.view.answerField then NoAnswerField
    else if Text.Strip(input, JsSpaces) == [] then EmptyAnswer
    else if s.current.None? then Crashed
    else Sent(AnswerRequest(s.current.value.id, Text.Strip(input, JsSpaces)))
  }

  /** The `/submit_results` reply handler: an alert, then a redisplay of the
      unchanged available score. No reply changes the session. */
  function ApplyAnswerReply(s: Session, reply: AnswerReply): (r: (Session, Notice))
    ensures r.0 == s
    ensures r.1.Correct? <==> reply.Graded? && reply.success
    ensures r.1.Correct? ==> r.1.points == reply.challengeScore
    ensures r.1 == Incorrect <==> reply.Graded? && !reply.success
  {
    match reply
    case Graded(ok, points) => (s, if ok then Correct(points) else Incorrect)
    case AnswerFetchFailed => (s, Logged)
  }

  // ---------------------------------------------------------------------
  // Properties of event sequences

  /** The session after a series of hint clicks, with the requests sent. */
  function Clicks(s: Session, clicks: seq<nat>): (Session, seq<HintRequest>)
    decreases |clicks|
  {
    if clicks == [] then (s, [])
    else
      var (s1, req) := ClickHint(s, clicks[0]);
      var (s2, reqs) := Clicks(s1, clicks[1..]);
      (s2, (if req.Some? then [req.value] else []) + reqs)
  }

  /** Hint buttons keep their owner and index; only the flag changes. */
  ghost predicate SameButtons(a: Session, b: Session) {
    |a.hints| == |b.hints|
    && forall i :: 0 <= i < |a.hints| ==>
         a.hints[i].owner == b.hints[i].owner && a.hints[i].index == b.hints[i].index
  }

  /** Every button carries its own position as its index, as `setupHints`
      builds them. */
  ghost predicate IndexedButtons(s: Session) {
    forall i :: 0 <= i < |s.hints| ==> s.hints[i].index == i
  }

  /** The hint indices a list of requests asks for. */
  function RequestedIndices(reqs: seq<HintRequest>): set<nat> {
    set j | 0 <= j < |reqs| :: reqs[j].hintIndex
  }

  lemma RequestedIndicesCons(x: HintRequest, reqs: seq<HintRequest>)
    ensures RequestedIndices([x] + reqs) == {x.hintIndex} + RequestedIndices(reqs)
  {
    var all := [x] + reqs;
    assert all[0] == x;
    forall j | 0 <= j < |reqs| ensures all[j + 1] == reqs[j] { }
    assert forall j :: 0 < j < |all| ==> all[j] == reqs[j - 1];
  }

  /** Selecting a challenge builds indexed buttons, all enabled. */
  lemma SelectBuildsFreshButtons(catalog: seq<Challenge>, s: Session, id: int)
    requires IndexedButtons(s)
    ensures IndexedButtons(Select(catalog, s, id))
    ensures FindChallenge(catalog, id).Some? ==> DisabledHints(Select(catalog, s, id)) == {}
  {
  }

  /** Over any series of clicks, each hint index is requested at most once,
      and the indices requested are exactly the buttons that became
      disabled. Clicking alone never changes the score. */
  lemma {:induction false} ClicksRequestEachHintAtMostOnce(s: Session, clicks: seq<nat>)
    requires IndexedButtons(s)
    ensures var (r, reqs) := Clicks(s, clicks);
      && SameButtons(s, r)
      && r.availableScore == s.availableScore
      && DisabledHints(s) <= DisabledHints(r)
      && (forall j, k :: 0 <= j < k < |reqs| ==> reqs[j].hintIndex != reqs[k].hintIndex)
      && RequestedIndices(reqs) == DisabledHints(r) - DisabledHints(s)
    decreases |clicks|
  {
    if clicks != [] {
      var (s1, req) := ClickHint(s, clicks[0]);
      var (r, reqs) := Clicks(s1, clicks[1..]);
      assert SameButtons(s, s1);
      ClicksRequestEachHintAtMostOnce(s1, clicks[1..]);
      var all := (if req.Some? then [req.value] else []) + reqs;
      assert Clicks(s, clicks) == (r, all);
      if req.Some? {
        var i := clicks[0];
        assert req.value.hintIndex == i;
        assert DisabledHints(s1) == DisabledHints(s) + {i};
        RequestedIndicesCons(req.value, reqs);
        forall j, k | 0 <= j < k < |all| ensures all[j].hintIndex != all[k].hintIndex {
          assert all[k] == reqs[k - 1];
          if j > 0 { assert all[j] == reqs[j - 1]; }
        }
      } else {
        assert all == reqs;
      }
    }
  }

  /** The session after a series of hint replies that each carry a text and
      the given penalty. */
  function HintReplies(s: Session, penalties: seq<int>): Session
    decreases |penalties|
  {
    if penalties == [] then s
    else HintReplies(ApplyHintReply(s, Answered(Some("hint"), penalties[0])), penalties[1..])
  }

  /** With non-negative penalties, a series of hint replies leaves
      `max(0, score - sum of penalties)`: flooring after every step is the
      same as flooring once. */
  lemma {:induction false} HintRepliesFloorOnce(s: Session, penalties: seq<int>)
    requires forall i :: 0 <= i < |penalties| ==> penalties[i] >= 0
    ensures var left := s.availableScore - Sums.Sum(penalties);
      HintReplies(s, penalties).availableScore == (if left > 0 then left else 0)
    decreases |penalties|
  {
    if penalties != [] {
      var s1 := ApplyHintReply(s, Answered(Some("hint"), penalties[0]));
      assert HintApplies(Answered(Some("hint"), penalties[0]));
      HintRepliesFloorOnce(s1, penalties[1..]);
      Sums.SumNonNegative(penalties[1..]);
    }
  }

  /** A reply to a hint requested for challenge 1 that arrives after
      challenge 2 was selected is charged against challenge 2's score. */
  lemma StaleHintReplyChargesNewSelection()
    ensures
      var a := Challenge(1, "A", "", None, "", 10, 1);
      var b := Challenge(2, "B", "", None, "", 20, 0);
      var s1 := Select([a, b], Init, 1);
      var (s2, req) := ClickHint(s1, 0);
      var s3 := Select([a, b], s2, 2);
      var s4 := ApplyHintReply(s3, Answered(Some("use a loop"), 5));
      && req == Some(HintRequest(1, 0))
      && s3.current == Some(b) && s3.availableScore == 20
      && s4.current == Some(b) && s4.availableScore == 15
  {
  }
}

=== FILE: sums.dfy ===
/** Sums of integer lists: the penalties charged in the browser and the
    awards made on the server. */
module Sums {

  function Sum(xs: seq<int>): int {
    if xs == [] then 0 else xs[0] + Sum(xs[1..])
  }

  /** A list of non-negative numbers has a non-negative sum. */
  lemma {:induction false} SumNonNegative(xs: seq<int>)
    requires forall i :: 0 <= i < |xs| ==> xs[i] >= 0
    ensures Sum(xs) >= 0
  {
    if xs != [] {
      SumNonNegative(xs[1..]);
    }
  }
}

=== FILE: text.dfy ===
/** Cutting white space from both ends of a string. JavaScript's `trim()` and
    the stripping Python's `int()` does differ only in which characters count
    as white space, so that set is a parameter. */
module Text {

  /** Every character of `w` is white space. */
  predicate AllIn(w: string, ws: set<char>) {
    forall i :: 0 <= i < |w| ==> w[i] in ws
  }

  /** The number of white-space characters `s` starts with. */
  function Leading(s: string, ws: set<char>): (n: nat)
    ensures n <= |s|
    ensures forall i :: 0 <= i < n ==> s[i] in ws
    ensures n < |s| ==> s[n] !in ws
  {
    if s != [] && s[0] in ws then
      var n := 1 + Leading(s[1..], ws);
      assert forall i :: 1 <= i < n ==> s[i] == s[1..][i - 1];
      n
    else 0
  }

  /** The number of white-space characters `s` ends with. */
  function Trailing(s: string, ws: set<char>): (n: nat)
    ensures n <= |s|
    ensures forall i :: |s| - n <= i < |s| ==> s[i] in ws
    ensures n < |s| ==> s[|s| - n - 1] !in ws
  {
    if s != [] && s[|s| - 1] in ws then
      var p := s[..|s| - 1];
      var n := 1 + Trailing(p, ws);
      assert forall i :: |s| - n <= i < |s| - 1 ==> s[i] == p[i];
      n
    else 0
  }

  /** The leading white space cut away. */
  function StripStart(s: string, ws: set<char>): (r: string)
    ensures r == [] || r[0] !in ws
  {
    s[Leading(s, ws)..]
  }

  /** The trailing white space cut away. */
  function StripEnd(s: string, ws: set<char>): (r: string)
    ensures r == [] || r[|r| - 1] !in ws
  {
    s[..|s| - Trailing(s, ws)]
  }

  /** White space cut away at both ends: no longer than the input, with no
      white space left at either end. */
  function Strip(s: string, ws: set<char>): (r: string)
    ensures |r| <= |s|
    ensures r == [] || (r[0] !in ws && r[|r| - 1] !in ws)
  {
    var t := StripStart(s, ws);
    var r := StripEnd(t, ws);
    assert r != [] ==> r[0] == t[0];
    r
  }

  /** The stripped text is a slice of the input with only white space cut
      away at either end. */
  lemma StripIsInnerSlice(s: string, ws: set<char>)
    ensures Leading(s, ws) + |Strip(s, ws)| <= |s|
    ensures Strip(s, ws) == s[Leading(s, ws)..Leading(s, ws) + |Strip(s, ws)|]
    ensures AllIn(s[..Leading(s, ws)], ws)
    ensures AllIn(s[Leading(s, ws) + |Strip(s, ws)|..], ws)
  {
    var a := Leading(s, ws);
    var t := StripStart(s, ws);
    var r := Strip(s, ws);
    StripStartSplits(s, ws);
    StripEndSplits(t, ws);
    var w1 := s[..a];
    var w2 := t[|t| - Trailing(t, ws)..];
    assert s == w1 + r + w2;
    assert s[a..a + |r|] == r;
    assert s[a + |r|..] == w2;
  }

  /** The input is its leading white space followed by `StripStart`. */
  lemma StripStartSplits(s: string, ws: set<char>)
    ensures s == s[..Leading(s, ws)] + StripStart(s, ws)
    ensures AllIn(s[..Leading(s, ws)], ws)
  {
    var w := s[..Leading(s, ws)];
    assert forall i :: 0 <= i < |w| ==> w[i] == s[i];
  }

  /** The input is `StripEnd` followed by its trailing white space. */
  lemma StripEndSplits(t: string, ws: set<char>)
    ensures t == StripEnd(t, ws) + t[|t| - Trailing(t, ws)..]
    ensures AllIn(t[|t| - Trailing(t, ws)..], ws)
  {
    var k := |t| - Trailing(t, ws);
    assert t == t[..k] + t[k..];
    forall i | 0 <= i < |t| - k ensures t[k..][i] in ws {
      assert t[k..][i] == t[k + i];
    }
  }

  /** The stripped text is empty exactly when the input is all white space. */
  lemma StripEmptyIffAllIn(s: string, ws: set<char>)
    ensures Strip(s, ws) == [] <==> AllIn(s, ws)
  {
    StripIsInnerSlice(s, ws);
    var a := Leading(s, ws);
    if Strip(s, ws) == [] {
      assert s[..a] == s;
    }
  }

  /** Any text with no white space at either end is recovered from itself
      padded with white space on both sides. */
  lemma StripPadded(w1: string, m: string, w2: string, ws: set<char>)
    requires AllIn(w1, ws) && AllIn(w2, ws)
    requires m != [] ==> m[0] !in ws && m[|m| - 1] !in ws
    ensures Strip(w1 + m + w2, ws) == m
  {
    var s := w1 + m + w2;
    if m == [] {
      assert s == w1 + w2;
      forall i | 0 <= i < |s| ensures s[i] in ws {
        if i >= |w1| { assert s[i] == w2[i - |w1|]; }
      }
      StripEmptyIffAllIn(s, ws);
    } else {
      LeadingOf(s, |w1|, ws);
      var t := s[|w1|..];
      assert t == m + w2;
      TrailingOf(t, |w2|, ws);
      assert t[..|t| - |w2|] == m;
    }
  }

  /** Text with no white space at either end is left as it is. */
  lemma StripUnpadded(s: string, ws: set<char>)
    requires s != [] ==> s[0] !in ws && s[|s| - 1] !in ws
    ensures Strip(s, ws) == s
  {
    StripPadded([], s, [], ws);
    assert [] + s + [] == s;
  }

  /** `Leading` is the one count that is all white space and stops at a
      character that is not. */
  lemma LeadingOf(s: string, n: nat, ws: set<char>)
    requires n <= |s|
    requires forall i :: 0 <= i < n ==> s[i] in ws
    requires n < |s| ==> s[n] !in ws
    ensures Leading(s, ws) == n
  {
  }

  /** `Trailing` is the one count that is all white space and stops at a
      character that is not. */
  lemma TrailingOf(s: string, n: nat, ws: set<char>)
    requires n <= |s|
    requires forall i :: |s| - n <= i < |s| ==> s[i] in ws
    requires n < |s| ==> s[|s| - n - 1] !in ws
    ensures Trailing(s, ws) == n
  {
  }
}

=== FILE: wrappers.dfy ===
/** Optional values shared by every module of the model. */
module Wrappers {

  /** A value that may be absent: JavaScript `undefined`/`null`, Python `None`,
      or a call into learner code that raised. */
  datatype Option<+T> = None | Some(value: T)
}
